=== FILE: README.md ===
# Chat server request processor, modelled in Dafny

This project models the `Processor` class of the chat server: the handlers
that turn one decrypted client request into a change of the relational store
and a response code. Beneath its SQL and crypto plumbing the processor is a
deterministic state machine over

- `users` rows, each with a password and four text arrays (friends,
  favorites, blacklist, dialogs);
- `profiles` rows (status, email, birthday, about);
- pending add-requests `(from, to, msg)`;
- sessions `(address, name, key)`;
- one log table `d<n>` per dialog, with rows `(content, timestamp, sender)`.

The store is one immutable value (`Store.State`). Every handler is a pure
function from a store and the request's arguments to an `Outcome`: the store
afterwards and either a packed response (`Sent`) or the exception raised
(`Raised(BadRequest)` for the processor's own exception, `Raised(StoreFault)`
for every other one: a `TypeError` on a missing row, a `ProgrammingError` on
a dropped dialog table, an `IndexError`). The source commits each helper's
write as it goes, so a handler that raises part-way (`register`,
`confirm_add_request`, `delete_profile`) keeps its earlier writes in the
model too.

Modules follow the program's structure:

- `Lists`: the array steps of `_add_to` / `_remove_from` and SQL `!= ANY`.
- `Store`: the state, and the helpers `_add_to`, `_remove_from`,
  `_is_blacklisted`, `_remove_add_request`, `_get_collocutor`,
  `_user_in_dialog`, `_user_exists`, `_get_nick` and the session helpers.
- `Nick`: `nick_ptrn` and `_valid_nick`, with `\w` an abstract predicate.
- `DialogIds`: `_next_free_dialog`.
- `DialogLog`: the ordered history, the search filter and `_delete_dialog`.
- `SocialGraph`, `Queries`, `Dialogs`, `Accounts`: the request handlers.
- `Invariants`: the store shape every handler keeps.
- `Scenarios`: properties of runs of several requests, including the quirks
  kept as written.

The handlers are kept as the code has them, quirks included:

- `add_to_blacklist` changes only the caller's side.
- Destroying a dialog leaves its id in the other participant's list.
- The allocator never fills a gap below the smallest existing id.
- `search_list` tests `x != ANY(arr)`, which is not "x is absent".
- `confirm_add_request` works without a pending request.

## Model

| member | source | states |
|---|---|---|
| Lists.Added | processors.py:266-268 | an absent item is appended at the end and nothing else changes, an item already present leaves the list as it was, and a duplicate-free list stays duplicate-free |
| Lists.Removed | processors.py:224-227 | Python's `list.remove` with the `ValueError` swallowed: an absent item changes nothing, a present one shortens the list by one, no other element is lost, and in a duplicate-free list the item is gone afterwards |
| Lists.RemovedFirst | processors.py:224-227 | `list.remove` cuts out exactly the first occurrence of the item and keeps every other element in its order |
| Lists.AnyDiffersOrEmpty | processors.py:465-466 | `x != ANY(arr) OR arr = '{}'` fails exactly when the array is non-empty and holds nothing but `x` |
| Lists.AnyDiffersDespiteMember | processors.py:465-466 | a two-element array holding `x` and another value passes the `!= ANY` test although `x` is in it |
| Store.AddName | processors.py:254-274 | `_add_to` on an existing owner: only the owner's chosen column changes, its members gain exactly the item, duplicate-freedom is kept, and an item already listed leaves the store unchanged |
| Store.RemoveName | processors.py:212-232 | `_remove_from` on an existing owner: only the owner's chosen column changes, no member other than the item is lost, with no duplicates the item is gone, and an absent item leaves the store unchanged |
| Store.AddTo | processors.py:254-274 | `_add_to` raises `BadRequest` exactly when the owner has no `users` row, and otherwise performs the write of `AddName` |
| Store.RemoveFrom | processors.py:212-232 | `_remove_from` raises `BadRequest` exactly when the owner has no `users` row, and otherwise performs the write of `RemoveName` |
| Store.AddDialog | processors.py:254-274 | adding a dialog number to an owner's `dialogs`: the number is listed afterwards, no other number appears or disappears, and nothing outside that column changes |
| Store.AddDialogTo | processors.py:254-274 | the dialog form of `_add_to` raises `BadRequest` exactly for an unknown owner |
| Store.RemoveDialogFrom | processors.py:212-232 | the dialog form of `_remove_from`: `BadRequest` exactly for an unknown owner; otherwise only that owner's `dialogs` lose the number and keep every other one |
| Store.RemoveAddRequest | processors.py:244-252 | exactly the request rows from `from` to `to` are deleted; every other row stays and no row appears |
| Store.HasRequest | processors.py:627-632 | some request row goes from the first name to the second: the probe `send_request` makes in each direction |
| Store.NameAt | processors.py:186-196 | there is no name exactly when no session row has the address, and a returned name belongs to a session row opened from it |
| Store.GetNick | processors.py:186-196 | `_get_nick` raises `BadRequest` exactly when no session is open from the address, and otherwise returns the name of such a session |
| Store.Online | processors.py:487-488 | the set of names holding a session row, in both directions |
| Store.AddSession | processors.py:170-184 | the insert raises `BadRequest` exactly when the store's uniqueness constraint refuses it; otherwise exactly the new row joins the sessions and nothing else changes |
| Store.CloseSession | processors.py:203-210 | every session row opened from the address goes and every other row stays |
| Store.InDialog | processors.py:289-303 | `_user_in_dialog` accepts exactly an integer dialog listed in the user's `dialogs`, returning that number, and raises `BadRequest` otherwise |
| Store.UserExists | processors.py:326-335 | `_user_exists`: the name has a `users` row |
| Store.IsBlacklisted | processors.py:234-242 | `_is_blacklisted(nick, user)`: `nick` is in `user`'s blacklist, never of oneself |
| Store.Collocutor | processors.py:276-287 | `_get_collocutor` finds nobody exactly when no other user lists the dialog; a found user lists it and is not the caller, and the sole other holder is always the one found |
| Text.Least | processors.py:276-287 | the chosen holder is a member of the set and lexicographically no greater than any other |
| Nick.ValidNick | processors.py:102 | an accepted name has 2 to 15 characters, starts with a non-space and is not blank |
| Nick.LeadingSpaceRejected | processors.py:102 | the lookahead `(?![ ]+)` refuses every name starting with a space, even one with word characters after it |
| Nick.InnerSpacesAccepted | processors.py:337-339 | a 2 to 15 character name of word characters and spaces, not starting with a space, matches the whole pattern |
| Nick.LengthOutOfRangeRejected | processors.py:337-339 | a name shorter than 2 or longer than 15 characters never matches |
| Nick.ForeignCharRejected | processors.py:337-339 | one character outside `[\w ]` anywhere makes the name invalid |
| DialogIds.SortedIds | processors.py:344-347 | the parsed table numbers as a strictly increasing list holding exactly the existing ids |
| DialogIds.MinId | processors.py:346-358 | the least existing id |
| DialogIds.ScanFindsFirstGap | processors.py:355-358 | the scan stops at an unused number above the smallest id, and every number from the smallest id up to it is used |
| DialogIds.NextFreeId | processors.py:341-358 | `_next_free_dialog` never returns a used id, returns 1 when there are none, otherwise returns the number just after a used id that closes the consecutive run from the smallest id, and is at least 1 when the ids are |
| DialogIds.FirstGapIsNext | processors.py:341-358 | an unused number that follows a used id and closes the run from the smallest id is exactly the allocator's answer |
| DialogIds.AllocationExamples | processors.py:341-358 | no ids give 1, {1,2,4} gives 3, {1,2,3} gives 4, and {2,3} gives 4: the gap below the smallest id is not filled |
| DialogIds.ContiguousRunGivesSuccessor | processors.py:341-358 | when the ids are exactly 1..n the allocator gives n + 1 |
| DialogIds.RunMembers | processors.py:341-358 | the set `Run(n)` holds exactly the numbers 1..n |
| DialogLog.InsertByTime | processors.py:514-516 | inserting a row into a timestamp-ordered log keeps it ordered and adds exactly that row |
| DialogLog.SortByTime | processors.py:514-516 | `ORDER BY timestamp` yields an ordered permutation of the log |
| DialogLog.History | processors.py:509-519 | for a count of 0 all rows, otherwise the last `min(count, n)` rows of the ordered log, ordered and drawn from the log |
| DialogLog.SortedAppend | processors.py:514-516 | an ordered log followed by a row no earlier than any of its rows is ordered |
| DialogLog.InsertKeepsLast | processors.py:514-516 | inserting a row no later than a log's latest row leaves that latest row last |
| DialogLog.InsertInFront | processors.py:514-516 | a row no later than the head of an ordered log goes in front of it |
| DialogLog.InsertPast | processors.py:514-516 | a row later than the head of an ordered log goes after the head |
| DialogLog.InsertPastAppended | processors.py:514-516 | the same step over a log with a latest row appended |
| DialogLog.LatestSortsLast | processors.py:514-516 | ordering a log with a row no earlier than all others appended puts that row last, after the ordered rest |
| DialogLog.SortedStaysBounded | processors.py:514-516 | ordering a log keeps every row bounded by the same timestamp |
| DialogLog.SortAppendedUnfolds | processors.py:514-516 | ordering `rows + [x]` inserts the first row into the ordering of the rest with `x` appended |
| DialogLog.LatestIsLastOfHistory | processors.py:509-519 | a history of one row over a log whose newest row was appended last is exactly that row |
| DialogLog.SearchRows | processors.py:808-812 | the `search_msg` query keeps exactly the rows whose text contains the search text and whose timestamp lies in the window, both ends included, each as many times as it is stored; an empty window gives nothing |
| DialogLog.SearchRowsInOrder | processors.py:808-812 | the matching rows come back in stored order: the result for two stretches of the log is the result for the first followed by the result for the second, and a single row comes back exactly when it matches |
| DialogLog.Matches | processors.py:808-810 | the `search_msg` condition: the text occurs in the content and the timestamp lies in the window, both ends included |
| Text.Contains | processors.py:809 | `POSITION(t IN s) > 0`: `t` is a prefix of some suffix of `s` |
| Text.ContainsIffOccurs | processors.py:809 | `Contains` holds exactly when the text occurs at some index of the content |
| DialogLog.MarkDeleted | processors.py:317-319 | rewrites exactly the requester's rows to `'~' + user`, keeps each row's text and time, leaves every other row unchanged, and no row keeps the requester as sender |
| DialogLog.MarkDeletedTwice | processors.py:317-319 | running the `UPDATE` again on a marked log changes nothing, since no row keeps the requester as sender |
| DialogLog.FirstOtherSender | processors.py:311-313 | there is no other sender exactly when the requester wrote every row; a found sender differs from the requester and wrote a row |
| DialogLog.Abandoned | processors.py:313-314 | `_delete_dialog`'s test: nobody else wrote, or the first row by somebody else carries the deletion mark |
| DialogLog.DeleteDialog | processors.py:305-324 | `_delete_dialog` faults on a missing table or an empty probed sender; it drops the log when nobody else wrote or the other writer's row is marked, otherwise marks the requester's rows; in both cases the id leaves only the requester's `dialogs`, and every other log and table is untouched |
| DialogLog.NextDialogId | processors.py:341-358 | the allocator over the existing dialog tables returns an unused id, at least 1 when all ids are |
| SocialGraph.AddToBlacklist | processors.py:578-593 | refuses an unknown target, oneself and a caller without a row; on success `user` is in the caller's blacklist, the caller's friends and favorites lose at most `user` (and lose it when duplicate-free), no request links the two, and `user`'s own record is unchanged |
| SocialGraph.Block | processors.py:585-589 | the writes of `add_to_blacklist` establish `Blocked`: only the caller's record and the pair's requests change, the blacklist gains exactly `user`, friends and favorites keep every other name and gain none, and the record stays coherent |
| SocialGraph.UnlinkedSelf | processors.py:212-232 | a record counts as unlinked from any name when nothing is removed |
| SocialGraph.Unfriend | processors.py:599-600 | the owner drops the other from friends and favorites and nothing else in the store changes |
| SocialGraph.DeleteFromFriends | processors.py:595-606 | succeeds exactly for a known caller and a known target; each record only loses the other name from friends and favorites (and loses it when duplicate-free), keeping password, blacklist, dialogs and every other friend and favorite; requests are untouched and both records stay coherent |
| SocialGraph.SendRequest | processors.py:608-641 | refuses oneself, a target whose friends or blacklist hold the caller, and a pair already linked by a request either way; otherwise adds exactly the row (caller, user, msg) |
| SocialGraph.ConfirmAddRequest | processors.py:764-777 | refuses when the caller has blacklisted `user`; otherwise deletes exactly the request from `user`, and each side's friends gain exactly the other while the rest of both records stays as it was, with no pending request needed; a caller without a row raises after `user`'s side was written |
| SocialGraph.DeclineAddRequest | processors.py:840-847 | succeeds for a known target and deletes exactly the request from `user` to the caller |
| SocialGraph.TakeRequestBack | processors.py:755-762 | succeeds for a known target and deletes exactly the request from the caller to `user` |
| SocialGraph.AddToFavorites | processors.py:779-795 | only a current friend of the caller becomes a favorite; only the caller's favorites change, gaining exactly `user` |
| SocialGraph.RemoveFromFavorites | processors.py:817-822 | only the caller's favorites change, and with no duplicates they lose exactly `user` |
| SocialGraph.RemoveFromBlacklist | processors.py:746-753 | only the caller's blacklist changes, and with no duplicates it loses exactly `user` |
| Queries.SearchList | processors.py:449-474 | lists exactly the other users that are not request partners of the caller and whose blacklist and friends are not made of the caller alone, each flagged with whether it holds a session |
| Queries.Listed | processors.py:463-471 | the `WHERE` clause of `search_list` with the `!= ANY` tests as written, minus the caller's request partners |
| Queries.SplitByPresence | processors.py:490-496 | the friends split into online and offline, together as many as the friends, each tagged with its presence |
| Queries.SplitInOrder | processors.py:492-496 | the loop appends in array order: splitting two stretches of the friends gives the first stretch's online and offline groups followed by the second's |
| Queries.SplitSingle | processors.py:492-496 | a single friend lands in exactly one group: online tagged `true` when it holds a session, offline tagged `false` otherwise |
| Queries.Tag | processors.py:498-499 | each name in order, paired with whether it holds a session |
| Queries.FriendsGroup | processors.py:476-502 | favorites, online friends, offline friends and the blacklist, each with presence flags; online and offline together account for every friend and are the split of the friends array, so they keep its order by `SplitInOrder`; a caller without a row faults |
| Queries.IncomingOf | processors.py:831-833 | the requests addressed to the caller, as (sender, message, sender online), with no entry that no row produced; duplicate-free rows give duplicate-free entries |
| Queries.IncomingCount | processors.py:831-833 | one entry per request row: each entry occurs as often as the request row it comes from |
| Queries.OutgoingOf | processors.py:834-836 | the requests sent by the caller, as (addressee, message, addressee online), with no entry that no row produced; duplicate-free rows give duplicate-free entries |
| Queries.OutgoingCount | processors.py:834-836 | one entry per request row: each entry occurs as often as the request row it comes from |
| Queries.AddRequests | processors.py:824-838 | the caller's pending requests in both directions, each with the partner's presence, one entry per request row (so no repeats when the table has none); no write |
| Dialogs.CommonDialog | processors.py:703-713 | there is a shared id exactly when some id of the first list is in the second, and a returned id is in both |
| Dialogs.CreateDialog | processors.py:688-725 | only towards a friend or blacklisted user; a shared dialog is returned with the store unchanged; otherwise the allocator's next id gets an empty log and joins both users' lists, and nothing else changes; a dialog with oneself faults |
| Dialogs.SendMessage | processors.py:521-547 | a non-integer dialog or a text over 1000 characters is refused first; then the caller must list the dialog and the other participant must not blacklist the caller; success appends exactly the row (text, time, caller); a dropped log or a time outside `bigint` faults with nothing written |
| Dialogs.MessageHistory | processors.py:504-519 | a negative count is refused before any lookup; a listed dialog's reply is its history for that count; a dropped log faults; no write |
| Dialogs.SearchMsg | processors.py:797-815 | an empty time window is refused before any lookup; a listed dialog's reply holds exactly its matching rows, each as many times as it is stored, in the stored order `SearchRowsInOrder` describes; no write |
| Accounts.Register | processors.py:379-409 | a name the pattern refuses or one already taken gets `register_error` and changes nothing; otherwise the new user row has empty arrays, the blank profile row is added, and the session is opened or `BadRequest` is raised with the account kept |
| Accounts.Login | processors.py:411-447 | the reply is `login_succ` exactly when name and password match a row and the session insert is admitted, adding exactly that session; otherwise nothing changes and the reply is `login_error`, or a fault when the public key does not parse |
| Accounts.Logout | processors.py:678-686 | always succeeds and removes exactly the session rows opened from the address |
| Accounts.WithSection | processors.py:560-574 | the chosen profile section takes the new value and the other three keep theirs |
| Accounts.ChangeProfileSection | processors.py:549-576 | succeeds exactly for a known session, an existing section and an integer birthday; only the caller's profile row changes, in that section only |
| Accounts.ProfileInfo | processors.py:727-744 | `BadRequest` exactly for no session, an unknown user, or a user who blacklisted the caller; a missing profile row faults; otherwise the profile of `user`; no write |
| Accounts.DropRequestsOf | processors.py:652-653 | deletes exactly the request rows from or to the user |
| Accounts.UnlinkFriends | processors.py:657-659 | the first loop of `delete_profile` stops with `BadRequest` exactly when a listed friend has no row, touches only listed friends, and keeps the set of users |
| Accounts.UnlinkFriendsUnlinks | processors.py:657-659 | after the loop every record has at most lost the deleted name from friends and favorites, and a completed loop removed it from every listed friend |
| Accounts.UnlinkFriendsKeepsRecords | processors.py:657-659 | every record after the loop is unlinked from the deleted name, step after step |
| Accounts.UnlinkFriendsClears | processors.py:657-659 | a completed loop leaves the deleted name in no listed friend's friends or favorites |
| SocialGraph.UnlinkedTwice | processors.py:599-602 | dropping a name twice in a row is still just dropping that name |
| Accounts.DropDialogs | processors.py:661-662 | the second loop of `delete_profile` changes only the deleted user's record and keeps every other table; it creates no log (what happens to the logs is stated by `DropDialogsClears`) |
| Accounts.DropDialogsClears | processors.py:661-662 | logs not listed by the user are untouched; a missing listed log makes the loop fault; after a completed loop no remaining listed log holds a row by the user, and each remaining listed log is its old rows with the user's rows marked deleted |
| Accounts.DropDialogsMarksSurvivors | processors.py:661-662 | after a completed loop every listed log that remains is its old log with the user's rows marked deleted, so the other party's rows stay, in place |
| Accounts.DropDialogsKeepsOthers | processors.py:661-662 | logs the user does not list come through the loop unchanged |
| Accounts.DropDialogsFaultsOnMissing | processors.py:661-662 | a listed dialog whose table is gone makes the loop fault |
| Accounts.DropDialogsClearsSender | processors.py:661-662 | after a completed loop no listed log that remains holds a row sent by the user |
| Accounts.Unblock | processors.py:669-671 | every user drops the name from the blacklist and keeps everything else |
| Accounts.Retire | processors.py:664-671 | the user and profile rows go; every remaining blacklist keeps each entry other than the name and gains none, and loses the name when duplicate-free; the other columns and tables are unchanged, and coherent records stay coherent |
| Accounts.DeleteProfile | processors.py:643-676 | no session gives `BadRequest`, no row a fault before any write; then a friend without a row gives `BadRequest`, a listed dialog without a table a fault, and the caller's requests and session from the address are gone whatever the outcome |
| Accounts.DeleteProfileRemovesAccount | processors.py:643-676 | a completed deletion removes the user and profile rows, keeps every other user's password and dialogs, and leaves every remaining blacklist with the same entries except the name, which is gone when duplicate-free |
| Accounts.DeleteProfileUnlinksFriends | processors.py:657-659 | a completed deletion leaves the name in no former friend's duplicate-free friends or favorites, and every remaining user's friends and favorites lose nothing but the name and gain nothing |
| Accounts.DeleteProfileClearsDialogs | processors.py:661-662 | a completed deletion creates no log, leaves no row by the user in the listed logs that remain, leaves each of them as its old rows with the user's rows marked deleted, and keeps every other log |
| Invariants.EmptyIsValid | processors.py:392-398 | the empty store has the shape every handler keeps |
| Invariants.FewerRequests | processors.py:244-252 | dropping request rows keeps the request table well formed |
| Invariants.ValidAfterDrop | processors.py:244-252 | a valid store with fewer request rows and nothing else changed is valid |
| Invariants.AddToBlacklistKeepsValid | processors.py:578-593 | `add_to_blacklist` keeps the store valid |
| Invariants.DeleteFromFriendsKeepsValid | processors.py:595-606 | `delete_from_friends` keeps the store valid |
| Invariants.SendRequestKeepsValid | processors.py:608-641 | `send_request` keeps at most one request per pair of users, none to oneself |
| Invariants.ConfirmAddRequestKeepsValid | processors.py:764-777 | `confirm_add_request` keeps the store valid, even when it raises part-way |
| Invariants.DeclineAddRequestKeepsValid | processors.py:840-847 | `decline_add_request` keeps the store valid |
| Invariants.TakeRequestBackKeepsValid | processors.py:755-762 | `take_request_back` keeps the store valid |
| Invariants.AddToFavoritesKeepsValid | processors.py:779-795 | `add_to_favorites` keeps every favorite among the friends |
| Invariants.RemoveFromFavoritesKeepsValid | processors.py:817-822 | `remove_from_favorites` keeps the store valid |
| Invariants.RemoveFromBlacklistKeepsValid | processors.py:746-753 | `remove_from_blacklist` keeps the store valid |
| Invariants.CreateDialogKeepsValid | processors.py:688-725 | `create_dialog` keeps arrays duplicate-free and dialog numbers from 1 up |
| Invariants.SendMessageKeepsValid | processors.py:521-547 | `send_message` keeps the store valid |
| Invariants.RegisterKeepsValid | processors.py:379-409 | `register` keeps the store valid: the new arrays are empty and the profile row comes with the user row |
| Invariants.LoginKeepsValid | processors.py:411-447 | `login` keeps the store valid |
| Invariants.LogoutKeepsValid | processors.py:678-686 | `logout` keeps the store valid |
| Invariants.ChangeProfileSectionKeepsValid | processors.py:549-576 | `change_profile_section` keeps the store valid |
| Invariants.DeleteProfileKeepsValid | processors.py:643-676 | `delete_profile` keeps the store valid, even when it stops part-way |
| Invariants.UnlinkKeepsValid | processors.py:657-659 | the first loop of `delete_profile` keeps the store valid |
| Invariants.DropDialogsKeepsValid | processors.py:661-662 | the second loop of `delete_profile` keeps the store valid |
| Invariants.RetireKeepsValid | processors.py:664-671 | removing the rows and unblocking the name keeps the store valid |
| Invariants.ProfileInfoNeverFaults | processors.py:727-744 | on a valid store `profile_info` never faults, and answers exactly for a known session and user who has not blacklisted the caller |
| Scenarios.RequestThenConfirm | processors.py:764-777 | a request followed by its confirmation makes the two friends of each other and leaves no request between them |
| Scenarios.CreateDialogTwice | processors.py:688-725 | asking twice for a dialog with the same user gives the same reply and changes nothing the second time |
| Scenarios.DestroyedDialogStaysListed | processors.py:305-324 | a dialog only its deleter wrote in is destroyed, yet stays in the other participant's list, whose history read then faults |
| Scenarios.FreedIdIsReissued | processors.py:715-722 | once every dialog table is gone, the next dialog gets id 1, and a user still listing a destroyed id 1 is a member of it |
| Scenarios.SoftThenHardDelete | processors.py:305-324 | deleting a shared dialog from one side marks that side's rows; deleting it from the other side then drops the table |
| Scenarios.MarkedRowsAbandoned | processors.py:311-319 | after one side marked its rows, the first row by somebody other than the second side is marked, so the log counts as abandoned |
| Scenarios.SearchListAnyQuirk | processors.py:463-471 | a user whose blacklist or friends array is exactly the caller is hidden, while one holding the caller and somebody else is listed |
| Scenarios.BlacklistIsOneSided | processors.py:578-593 | the blacklisted user keeps the caller in its own friends and favorites, while the caller now blacklists it |
| Scenarios.SendThenLatest | processors.py:504-547 | right after sending a message no earlier than the rest of the dialog, a one-row history returns exactly that message |
| Scenarios.RegisterThenLogin | processors.py:379-447 | after a completed registration, a login with the same name and password succeeds exactly when the session insert is admitted, whatever the key |

## Left out

- Connection setup and key-pair bootstrap (processors.py:83-99): database I/O; the store is an abstract value.
- `_decrypt`, `_encrypt`, `_verify_signature`, `_get_public_key`: thin wrappers over the rsa, pyaes and base64 libraries.
- `_pack`: a wrapper over `json.dumps`; responses are abstract `(code, payload)` values and the request id is dropped.
- `_send_notification` and every call to it, including the inverted `if not user` in `send_message`: transport I/O.
- `_request_id` and `_set_timestamp`: randomness and the clock. A message's timestamp is a parameter of `send_message`.
- `set_image`, the image column of `profiles` and the avatar read in `register`: image bytes and file I/O.
- The session table's uniqueness constraint lives in the unseen schema; whether `_add_session`'s insert is admitted is the `admit` parameter.
- After an exception the connection's aborted-transaction state is not modelled; later requests see the last committed store.
- Column type coercion is not modelled: a section value is kept as the JSON value received, and `sect` is an integer.
- `\w` is the abstract predicate `isWord`; Unicode word classes are not modelled.
- `register`'s `IntegrityError` is modelled as "the name already has a `users` or `profiles` row".
- Queries without `ORDER BY` are given fixed orders: `_get_nick` takes the first session row opened from the address, `_get_collocutor` takes the lexicographically least other holder, `_delete_dialog`'s probe takes the first stored row by somebody else (which decides drop versus mark once a reissued id has more than two writers), `set.pop()` in `create_dialog` takes the first shared id in the caller's order, `search_msg` returns rows in stored order, and timestamp ties keep their stored order.
- `login`'s error reply also carries the parsed public key; the model keeps only the `login_error` code, and whether the key parses is the `keyParses` parameter rather than a model of Python's `int` parsing.
- `delete_profile` closes only the session opened from the caller's address; sessions of the same user from other addresses stay, as in the code.
- Accounts.DeleteProfile: the contract describes the failure paths and the request and session tables; the state after a completed deletion is stated by `DeleteProfileRemovesAccount`, `DeleteProfileUnlinksFriends` and `DeleteProfileClearsDialogs`.
- SocialGraph.DeleteFromFriends: that the other name is gone is stated for duplicate-free arrays only, since `list.remove` drops just the first occurrence.
- SocialGraph.AddToBlacklist: that `user` is gone from friends and favorites is stated for duplicate-free arrays only, for the same reason.
- SocialGraph.Block: the same duplicate-free condition as `AddToBlacklist`.
- Argument types are fixed by the model: `send_message`'s time, `message_history`'s `count` and `search_msg`'s `lower_tm` and `upper_tm` are integers, and texts and names are strings. A JSON value of another type is not modelled: a float `count` would raise `TypeError` at the slice, and a string time bound would reach the query and fail or be coerced there. Only `dialog` (checked by `_user_in_dialog`) and a profile section's `change` (checked for the birthday) keep the JSON value received.
- Accounts.DeleteProfileUnlinksFriends: that the name is gone from a former friend's friends or favorites is stated for duplicate-free arrays only, since `list.remove` drops just the first occurrence.
- SocialGraph.RemoveFromFavorites: the exact set of remaining favorites is stated only for a duplicate-free array.
- SocialGraph.RemoveFromBlacklist: the exact set of remaining blacklist entries is stated only for a duplicate-free array.
- SocialGraph.Unfriend: removal of the name is stated only for duplicate-free arrays.
- Accounts.UnlinkFriendsUnlinks: the name is stated to be gone only from duplicate-free arrays.
- Nick.ValidNick: the name rule follows the code, which refuses any leading space; a rule of "not all spaces" would accept names such as " ab".

=== FILE: accounts.dfy ===
/** The account handlers: `register`, `login`, `logout`,
    `change_profile_section`, `profile_info` and `delete_profile`. */
module Accounts {
  import opened Wrappers
  import opened Lists
  import opened Store
  import opened Protocol
  import opened DialogLog
  import Nick
  import SocialGraph

  /** The `users` row `register` inserts: every array empty. */
  function NewUser(password: string): User {
    User(password, [], [], [], [])
  }

  /** The `profiles` row `register` inserts, without the image. */
  const BlankProfile := Profile(TextVal(""), TextVal(""), 0, TextVal(""))

  /** `register`. A name the pattern refuses, or one already taken, gets the
      soft `register_error` reply and changes nothing. Otherwise the user and
      profile rows are committed first; a refused session insert then raises
      and leaves the account in place without a session. */
  function Register(st: State, ip: Address, nick: Name, pswd: string, key: string,
                    isWord: char -> bool, admit: bool): (o: Outcome)
    ensures !Nick.ValidNick(nick, isWord) || nick in st.users || nick in st.profiles ==>
      o == Done(st, RegisterError, Nothing)
    ensures Nick.ValidNick(nick, isWord) && nick !in st.users && nick !in st.profiles ==>
      && o.st.users.Keys == st.users.Keys + {nick}
      && o.st.users[nick] == NewUser(pswd)
      && (forall n :: n in st.users ==> o.st.users[n] == st.users[n])
      && o.st.profiles == st.profiles[nick := BlankProfile]
      && o.st.requests == st.requests && o.st.logs == st.logs
      && (admit ==> o.reply == Sent(Response(RegisterSucc, Nothing)))
      && (admit ==> forall s :: s in o.st.sessions <==> s in st.sessions || s == Session(ip, nick, key))
      && (!admit ==> o.reply == Raised(BadRequest) && o.st.sessions == st.sessions)
  {
    if !Nick.ValidNick(nick, isWord) || nick in st.users || nick in st.profiles then
      Done(st, RegisterError, Nothing)
    else
      var s1 := st.(users := st.users[nick := NewUser(pswd)], profiles := st.profiles[nick := BlankProfile]);
      match AddSession(s1, nick, key, ip, admit)
      case Err(e) => Outcome(s1, Raised(e))
      case Ok(s2) => Done(s2, RegisterSucc, Nothing)
  }

  /** `login`: a name and password that match a `users` row, and a session
      row the store admits; anything else is the soft `login_error` reply
      with nothing changed. That reply is sent together with the parsed
      public key, so a key that does not parse as `n:e` makes it raise
      instead (`keyParses`). */
  function Login(st: State, ip: Address, nick: Name, pswd: string, key: string,
                 admit: bool, keyParses: bool): (o: Outcome)
    ensures o.reply == Sent(Response(LoginSucc, Nothing)) <==>
      nick in st.users && st.users[nick].password == pswd && admit
    ensures o.reply != Sent(Response(LoginSucc, Nothing)) ==>
      && o.st == st
      && (keyParses ==> o.reply == Sent(Response(LoginError, Nothing)))
      && (!keyParses ==> o.reply == Raised(StoreFault))
    ensures o.reply == Sent(Response(LoginSucc, Nothing)) ==>
      && o.st == st.(sessions := o.st.sessions)
      && (forall s :: s in o.st.sessions <==> s in st.sessions || s == Session(ip, nick, key))
  {
    if nick !in st.users || st.users[nick].password != pswd then LoginRefused(st, keyParses)
    else match AddSession(st, nick, key, ip, admit)
      case Err(_) => LoginRefused(st, keyParses)
      case Ok(s) => Done(s, LoginSucc, Nothing)
  }

  /** The `login_error` reply, whose public-key parse may raise. */
  function LoginRefused(st: State, keyParses: bool): (o: Outcome)
    ensures o.st == st
    ensures o.reply.Sent? <==> keyParses
    ensures o.reply.Sent? ==> o.reply.resp == Response(LoginError, Nothing)
    ensures o.reply.Raised? ==> o.reply.err == StoreFault
  {
    if keyParses then Done(st, LoginError, Nothing) else Outcome(st, Raised(StoreFault))
  }

  /** `logout`: every session opened from `ip` is closed, so the address no
      longer names a caller; nothing else changes. */
  function Logout(st: State, ip: Address): (o: Outcome)
    ensures o.reply == Sent(Response(LogoutSucc, Nothing))
    ensures o.st == st.(sessions := o.st.sessions)
    ensures forall s :: s in o.st.sessions <==> s in st.sessions && s.address != ip
    ensures GetNick(o.st, ip).Err?
  {
    Done(CloseSession(st, ip), LogoutSucc, Nothing)
  }

  /** Profile section `sect` (0 status, 1 email, 2 birthday, 3 about). */
  function Section(p: Profile, sect: int): Value
    requires 0 <= sect <= 3
  {
    if sect == 0 then p.status
    else if sect == 1 then p.email
    else if sect == 2 then IntVal(p.birthday)
    else p.about
  }

  /** A section value `change_profile_section` lets through. */
  predicate Acceptable(sect: int, change: Value) {
    0 <= sect <= 3 && (sect == 2 ==> change.IntVal?)
  }

  /** `p` with section `sect` replaced by `change`. */
  function WithSection(p: Profile, sect: int, change: Value): (q: Profile)
    requires Acceptable(sect, change)
    ensures Section(q, sect) == change
    ensures forall k :: 0 <= k <= 3 && k != sect ==> Section(q, k) == Section(p, k)
  {
    if sect == 0 then p.(status := change)
    else if sect == 1 then p.(email := change)
    else if sect == 2 then p.(birthday := change.i)
    else p.(about := change)
  }

  /** `change_profile_section`: a birthday must be an integer and the section
      must exist. The update touches the caller's profile row only, and is a
      no-op when there is no such row. */
  function ChangeProfileSection(st: State, ip: Address, sect: int, change: Value): (o: Outcome)
    ensures o.reply.Raised? ==> o == Outcome(st, Raised(BadRequest))
    ensures o.reply.Sent? <==> GetNick(st, ip).Ok? && Acceptable(sect, change)
    ensures o.reply.Sent? ==>
      var nick := GetNick(st, ip).value;
      && o.reply.resp == Response(ChangeProfileSectionSucc, Nothing)
      && o.st == st.(profiles := o.st.profiles)
      && o.st.profiles.Keys == st.profiles.Keys
      && (forall n :: n in st.profiles && n != nick ==> o.st.profiles[n] == st.profiles[n])
      && (nick in st.profiles ==>
            && Section(o.st.profiles[nick], sect) == change
            && forall k :: 0 <= k <= 3 && k != sect ==> Section(o.st.profiles[nick], k) == Section(st.profiles[nick], k))
  {
    match GetNick(st, ip)
    case Err(e) => Outcome(st, Raised(e))
    case Ok(nick) =>
      if !Acceptable(sect, change) then Outcome(st, Raised(BadRequest))
      else if nick !in st.profiles then Done(st, ChangeProfileSectionSucc, Nothing)
      else
        var p := WithSection(st.profiles[nick], sect, change);
        Done(st.(profiles := st.profiles[nick := p]), ChangeProfileSectionSucc, Nothing)
  }

  /** `profile_info`: refused when `user` has the caller blacklisted; a user
      without a profile row makes the unpacking fail. */
  function ProfileInfo(st: State, ip: Address, user: Name): (o: Outcome)
    ensures o.st == st
    ensures o.reply == Raised(BadRequest) <==>
      GetNick(st, ip).Err? || user !in st.users || IsBlacklisted(st, GetNick(st, ip).value, user)
    ensures o.reply == Raised(StoreFault) <==>
      && GetNick(st, ip).Ok? && user in st.users
      && !IsBlacklisted(st, GetNick(st, ip).value, user) && user !in st.profiles
    ensures o.reply.Sent? ==>
      user in st.profiles && o.reply.resp == Response(ServerCode.ProfileInfo, Info(st.profiles[user]))
  {
    match GetNick(st, ip)
    case Err(e) => Outcome(st, Raised(e))
    case Ok(nick) =>
      if !UserExists(st, user) || IsBlacklisted(st, nick, user) then Outcome(st, Raised(BadRequest))
      else if user !in st.profiles then Outcome(st, Raised(StoreFault))
      else Done(st, ServerCode.ProfileInfo, Info(st.profiles[user]))
  }

  /** How far a run of committed writes got: the store after the last
      committed step, and the exception that stopped the run, if any. */
  datatype Progress = Progress(st: State, fault: Option<Error>)

  /** `DELETE FROM requests WHERE from_who = nick OR to_who = nick`. */
  function DropRequestsOf(st: State, nick: Name): (st': State)
    ensures st' == st.(requests := st'.requests)
    ensures forall q :: q in st'.requests <==> q in st.requests && q.from != nick && q.to != nick
    ensures NoDup(st.requests) ==> NoDup(st'.requests)
  {
    st.(requests := Filter(st.requests, (q: AddRequest) => q.from != nick && q.to != nick))
  }

  /** The first loop of `delete_profile`: each listed friend drops `nick`
      from friends and favorites. A name without a `users` row makes
      `_remove_from` raise, after the earlier friends were committed. */
  function UnlinkFriends(st: State, fs: seq<Name>, nick: Name): (r: Progress)
    ensures r.st == st.(users := r.st.users)
    ensures r.st.users.Keys == st.users.Keys
    ensures r.fault.None? <==> forall f :: f in fs ==> f in st.users
    ensures r.fault.Some? ==> r.fault.value == BadRequest
    ensures forall n :: n in st.users && n !in fs ==> r.st.users[n] == st.users[n]
    decreases |fs|
  {
    if fs == [] then Progress(st, None)
    else if fs[0] !in st.users then Progress(st, Some(BadRequest))
    else
      var s1 := SocialGraph.Unfriend(st, fs[0], nick);
      var r := UnlinkFriends(s1, fs[1..], nick);
      assert forall f :: f in fs <==> f == fs[0] || f in fs[1..];
      r
  }

  /** What `UnlinkFriends` does to each record: `nick` may leave friends and
      favorites and nothing else changes; once the loop has run to the end,
      every listed friend whose arrays were duplicate-free has lost `nick`. */
  lemma UnlinkFriendsUnlinks(st: State, fs: seq<Name>, nick: Name)
    ensures var r := UnlinkFriends(st, fs, nick);
      forall n :: n in st.users ==> SocialGraph.Unlinked(st.users[n], r.st.users[n], nick)
    ensures var r := UnlinkFriends(st, fs, nick);
      r.fault.None? ==> forall f :: f in fs && NoDup(st.users[f].friends) ==> nick !in r.st.users[f].friends
    ensures var r := UnlinkFriends(st, fs, nick);
      r.fault.None? ==> forall f :: f in fs && NoDup(st.users[f].favorites) ==> nick !in r.st.users[f].favorites
  {
    UnlinkFriendsKeepsRecords(st, fs, nick);
    UnlinkFriendsClears(st, fs, nick);
  }

  lemma {:induction false} UnlinkFriendsKeepsRecords(st: State, fs: seq<Name>, nick: Name)
    ensures var r := UnlinkFriends(st, fs, nick);
      forall n :: n in st.users ==> SocialGraph.Unlinked(st.users[n], r.st.users[n], nick)
    decreases |fs|
  {
    var r := UnlinkFriends(st, fs, nick);
    if fs == [] || fs[0] !in st.users {
      forall n | n in st.users
        ensures SocialGraph.Unlinked(st.users[n], r.st.users[n], nick)
      {
        SocialGraph.UnlinkedSelf(st.users[n], nick);
      }
    } else {
      var s1 := SocialGraph.Unfriend(st, fs[0], nick);
      UnlinkFriendsKeepsRecords(s1, fs[1..], nick);
      assert r == UnlinkFriends(s1, fs[1..], nick);
      forall n | n in st.users
        ensures SocialGraph.Unlinked(st.users[n], r.st.users[n], nick)
      {
        if n == fs[0] {
          SocialGraph.UnlinkedTwice(st.users[n], s1.users[n], r.st.users[n], nick);
        } else {
          assert s1.users[n] == st.users[n];
        }
      }
    }
  }

  lemma {:induction false} UnlinkFriendsClears(st: State, fs: seq<Name>, nick: Name)
    ensures var r := UnlinkFriends(st, fs, nick);
      r.fault.None? ==> forall f :: f in fs && NoDup(st.users[f].friends) ==> nick !in r.st.users[f].friends
    ensures var r := UnlinkFriends(st, fs, nick);
      r.fault.None? ==> forall f :: f in fs && NoDup(st.users[f].favorites) ==> nick !in r.st.users[f].favorites
    decreases |fs|
  {
    if fs != [] && fs[0] in st.users {
      var s1 := SocialGraph.Unfriend(st, fs[0], nick);
      var r := UnlinkFriends(s1, fs[1..], nick);
      UnlinkFriendsClears(s1, fs[1..], nick);
      UnlinkFriendsKeepsRecords(s1, fs[1..], nick);
      assert r == UnlinkFriends(st, fs, nick);
      assert forall f :: f in fs <==> f == fs[0] || f in fs[1..];
    }
  }

  /** The second loop of `delete_profile`: `_delete_dialog` for each listed
      dialog, in order. A dialog whose table is gone makes it fault, after
      the earlier dialogs were committed. */
  function DropDialogs(st: State, ds: seq<int>, nick: Name): (r: Progress)
    requires nick in st.users
    ensures r.st.users.Keys == st.users.Keys
    ensures forall n :: n in st.users && n != nick ==> r.st.users[n] == st.users[n]
    ensures r.st.users[nick] == st.users[nick].(dialogs := r.st.users[nick].dialogs)
    ensures Coherent(st.users[nick]) ==> Coherent(r.st.users[nick])
    ensures r.st.profiles == st.profiles && r.st.requests == st.requests && r.st.sessions == st.sessions
    ensures r.fault.Some? ==> r.fault.value == StoreFault
    ensures r.st.logs.Keys <= st.logs.Keys
    decreases |ds|
  {
    if ds == [] then Progress(st, None)
    else match DeleteDialog(st, ds[0], nick)
      case Err(e) => Progress(st, Some(e))
      case Ok(s) => DropDialogs(s, ds[1..], nick)
  }

  /** What `DropDialogs` does to the logs: a listed dialog whose table is
      missing stops it with a fault; once it has run to the end, no listed
      dialog that survives holds a row sent by `nick`; unlisted logs stay. */
  lemma DropDialogsClears(st: State, ds: seq<int>, nick: Name)
    requires nick in st.users
    ensures var r := DropDialogs(st, ds, nick);
      forall e :: e in st.logs && e !in ds ==> e in r.st.logs && r.st.logs[e] == st.logs[e]
    ensures (exists i :: 0 <= i < |ds| && ds[i] !in st.logs) ==> DropDialogs(st, ds, nick).fault.Some?
    ensures var r := DropDialogs(st, ds, nick);
      r.fault.None? ==> forall d :: d in ds && d in r.st.logs ==> forall x :: x in r.st.logs[d] ==> x.sender != nick
    ensures var r := DropDialogs(st, ds, nick);
      r.fault.None? ==> forall d :: d in ds && d in r.st.logs ==> r.st.logs[d] == MarkDeleted(st.logs[d], nick)
  {
    DropDialogsKeepsOthers(st, ds, nick);
    DropDialogsFaultsOnMissing(st, ds, nick);
    DropDialogsClearsSender(st, ds, nick);
    DropDialogsMarksSurvivors(st, ds, nick);
  }

  /** After a completed loop, a listed log that survives holds exactly its
      old rows with the user's rows marked deleted: the other party's rows
      stay as they were, in place. */
  lemma {:induction false} DropDialogsMarksSurvivors(st: State, ds: seq<int>, nick: Name)
    requires nick in st.users
    ensures var r := DropDialogs(st, ds, nick);
      r.fault.None? ==> forall d :: d in ds && d in r.st.logs ==> r.st.logs[d] == MarkDeleted(st.logs[d], nick)
    decreases |ds|
  {
    if ds != [] && DeleteDialog(st, ds[0], nick).Ok? {
      var s := DeleteDialog(st, ds[0], nick).value;
      var r := DropDialogs(s, ds[1..], nick);
      assert r == DropDialogs(st, ds, nick);
      DropDialogsMarksSurvivors(s, ds[1..], nick);
      DropDialogsKeepsOthers(s, ds[1..], nick);
      if r.fault.None? {
        forall d | d in ds && d in r.st.logs
          ensures r.st.logs[d] == MarkDeleted(st.logs[d], nick)
        {
          assert d in s.logs;
          if d == ds[0] {
            MarkDeletedTwice(st.logs[d], nick);
          } else {
            assert d in ds[1..];
          }
        }
      }
    }
  }

  lemma {:induction false} DropDialogsKeepsOthers(st: State, ds: seq<int>, nick: Name)
    requires nick in st.users
    ensures var r := DropDialogs(st, ds, nick);
      forall e :: e in st.logs && e !in ds ==> e in r.st.logs && r.st.logs[e] == st.logs[e]
    decreases |ds|
  {
    if ds != [] && DeleteDialog(st, ds[0], nick).Ok? {
      var s := DeleteDialog(st, ds[0], nick).value;
      DropDialogsKeepsOthers(s, ds[1..], nick);
      assert forall d :: d in ds <==> d == ds[0] || d in ds[1..];
    }
  }

  lemma {:induction false} DropDialogsFaultsOnMissing(st: State, ds: seq<int>, nick: Name)
    requires nick in st.users
    ensures (exists i :: 0 <= i < |ds| && ds[i] !in st.logs) ==> DropDialogs(st, ds, nick).fault.Some?
    decreases |ds|
  {
    if ds != [] && DeleteDialog(st, ds[0], nick).Ok? {
      var s := DeleteDialog(st, ds[0], nick).value;
      DropDialogsFaultsOnMissing(s, ds[1..], nick);
      if i :| 0 <= i < |ds| && ds[i] !in st.logs {
        assert i != 0;
        assert ds[1..][i - 1] !in s.logs;
      }
    }
  }

  lemma {:induction false} DropDialogsClearsSender(st: State, ds: seq<int>, nick: Name)
    requires nick in st.users
    ensures var r := DropDialogs(st, ds, nick);
      r.fault.None? ==> forall d :: d in ds && d in r.st.logs ==> forall x :: x in r.st.logs[d] ==> x.sender != nick
    decreases |ds|
  {
    if ds != [] && DeleteDialog(st, ds[0], nick).Ok? {
      var s := DeleteDialog(st, ds[0], nick).value;
      DropDialogsClearsSender(s, ds[1..], nick);
      DropDialogsKeepsOthers(s, ds[1..], nick);
      assert forall d :: d in ds <==> d == ds[0] || d in ds[1..];
    }
  }

  /** The last loop of `delete_profile`: every remaining user drops `nick`
      from the blacklist. Every name comes from `users`, so none raises, and
      each row is visited once, so the order does not matter. */
  function Unblock(st: State, nick: Name): (st': State)
    ensures st' == st.(users := st'.users)
    ensures st'.users.Keys == st.users.Keys
    ensures forall n :: n in st.users ==> st'.users[n] == st.users[n].(blacklist := st'.users[n].blacklist)
    ensures forall n :: n in st.users ==>
      && (forall y :: y in st'.users[n].blacklist ==> y in st.users[n].blacklist)
      && (forall y :: y in st.users[n].blacklist && y != nick ==> y in st'.users[n].blacklist)
      && (NoDup(st.users[n].blacklist) ==> NoDup(st'.users[n].blacklist) && nick !in st'.users[n].blacklist)
  {
    st.(users := map n | n in st.users :: st.users[n].(blacklist := Removed(st.users[n].blacklist, nick)))
  }

  /** The end of `delete_profile`: the user and profile rows of `nick` go,
      and every remaining user drops `nick` from the blacklist. */
  function Retire(st: State, nick: Name): (st': State)
    ensures st'.users.Keys == st.users.Keys - {nick}
    ensures st'.profiles == st.profiles - {nick}
    ensures st'.requests == st.requests && st'.sessions == st.sessions && st'.logs == st.logs
    ensures forall n :: n in st'.users ==> st'.users[n] == st.users[n].(blacklist := st'.users[n].blacklist)
    ensures forall n :: n in st'.users ==>
      && (forall y :: y in st'.users[n].blacklist ==> y in st.users[n].blacklist)
      && (forall y :: y in st.users[n].blacklist && y != nick ==> y in st'.users[n].blacklist)
    ensures forall n :: n in st'.users && NoDup(st.users[n].blacklist) ==> nick !in st'.users[n].blacklist
    ensures forall n :: n in st'.users && Coherent(st.users[n]) ==> Coherent(st'.users[n])
  {
    Unblock(st.(users := st.users - {nick}, profiles := st.profiles - {nick}), nick)
  }

  /** `delete_profile`. A caller without a `users` row faults before any
      write. Then, each step committed as it goes: the caller's requests and
      the session from `ip` go; every listed friend drops the caller from
      friends and favorites; every listed dialog is deleted for the caller;
      the user and profile rows go; every remaining user drops the caller
      from the blacklist. A friend name without a row stops the run with
      `BadRequest`, a dialog whose table is gone with a fault. */
  function DeleteProfile(st: State, ip: Address): (o: Outcome)
    ensures GetNick(st, ip).Err? ==> o == Outcome(st, Raised(BadRequest))
    ensures GetNick(st, ip).Ok? && GetNick(st, ip).value !in st.users ==> o == Outcome(st, Raised(StoreFault))
    ensures GetNick(st, ip).Ok? && GetNick(st, ip).value in st.users ==>
      var nick := GetNick(st, ip).value;
      var u := st.users[nick];
      && ((exists f :: f in u.friends && f !in st.users) <==> o.reply == Raised(BadRequest))
      && ((forall f :: f in u.friends ==> f in st.users) ==>
            (exists i :: 0 <= i < |u.dialogs| && u.dialogs[i] !in st.logs) ==> o.reply == Raised(StoreFault))
      && (forall q :: q in o.st.requests <==> q in st.requests && q.from != nick && q.to != nick)
      && (forall s :: s in o.st.sessions <==> s in st.sessions && s.address != ip)
    ensures o.reply.Sent? ==> o.reply.resp == Response(DeleteProfileSucc, Nothing)
  {
    match GetNick(st, ip)
    case Err(e) => Outcome(st, Raised(e))
    case Ok(nick) =>
      if nick !in st.users then Outcome(st, Raised(StoreFault))
      else
        var friends := st.users[nick].friends;
        var dialogs := st.users[nick].dialogs;
        var s1 := CloseSession(DropRequestsOf(st, nick), ip);
        var p2 := UnlinkFriends(s1, friends, nick);
        if p2.fault.Some? then Outcome(p2.st, Raised(p2.fault.value))
        else
          DropDialogsClears(p2.st, dialogs, nick);
          var p3 := DropDialogs(p2.st, dialogs, nick);
          if p3.fault.Some? then Outcome(p3.st, Raised(p3.fault.value))
          else
            Done(Retire(p3.st, nick), DeleteProfileSucc, Nothing)
  }

  /** After a `delete_profile` that completes, the caller's user and profile
      rows are gone, no remaining user blacklists the caller, and the other
      users keep their passwords and dialogs. */
  lemma DeleteProfileRemovesAccount(st: State, ip: Address)
    requires DeleteProfile(st, ip).reply.Sent?
    ensures var o := DeleteProfile(st, ip);
      var nick := GetNick(st, ip).value;
      && o.st.users.Keys == st.users.Keys - {nick}
      && o.st.profiles == st.profiles - {nick}
      && (forall n :: n in o.st.users ==>
            o.st.users[n].password == st.users[n].password && o.st.users[n].dialogs == st.users[n].dialogs)
      && (forall n :: n in o.st.users && NoDup(st.users[n].blacklist) ==> nick !in o.st.users[n].blacklist)
      && (forall n, y :: n in o.st.users && y in o.st.users[n].blacklist ==> y in st.users[n].blacklist)
      && (forall n, y :: n in o.st.users && y in st.users[n].blacklist && y != nick ==> y in o.st.users[n].blacklist)
  {
    var nick := GetNick(st, ip).value;
    var s1 := CloseSession(DropRequestsOf(st, nick), ip);
    assert s1.users == st.users && s1.profiles == st.profiles;
    var p2 := UnlinkFriends(s1, st.users[nick].friends, nick);
    UnlinkFriendsUnlinks(s1, st.users[nick].friends, nick);
    var p3 := DropDialogs(p2.st, st.users[nick].dialogs, nick);
    var o := DeleteProfile(st, ip);
    assert o.st == Retire(p3.st, nick);
    forall n | n in o.st.users
      ensures o.st.users[n].password == st.users[n].password
      ensures o.st.users[n].dialogs == st.users[n].dialogs
      ensures NoDup(st.users[n].blacklist) ==> nick !in o.st.users[n].blacklist
      ensures forall y :: y in o.st.users[n].blacklist ==> y in st.users[n].blacklist
      ensures forall y :: y in st.users[n].blacklist && y != nick ==> y in o.st.users[n].blacklist
    {
      assert n != nick && n in st.users;
      assert p3.st.users[n] == p2.st.users[n];
      assert SocialGraph.Unlinked(st.users[n], p2.st.users[n], nick);
    }
  }

  /** After a `delete_profile` that completes, every friend the caller
      listed has dropped the caller from friends and favorites. */
  lemma DeleteProfileUnlinksFriends(st: State, ip: Address)
    requires DeleteProfile(st, ip).reply.Sent?
    ensures var o := DeleteProfile(st, ip);
      var nick := GetNick(st, ip).value;
      var u := st.users[nick];
      && (forall f :: f in u.friends && f in o.st.users && NoDup(st.users[f].friends) ==>
            nick !in o.st.users[f].friends)
      && (forall f :: f in u.friends && f in o.st.users && NoDup(st.users[f].favorites) ==>
            nick !in o.st.users[f].favorites)
      && (forall n :: n in o.st.users ==>
            SocialGraph.Unlinked(st.users[n], o.st.users[n].(blacklist := st.users[n].blacklist), nick))
  {
    var nick := GetNick(st, ip).value;
    var s1 := CloseSession(DropRequestsOf(st, nick), ip);
    assert s1.users == st.users;
    var p2 := UnlinkFriends(s1, st.users[nick].friends, nick);
    UnlinkFriendsUnlinks(s1, st.users[nick].friends, nick);
    var p3 := DropDialogs(p2.st, st.users[nick].dialogs, nick);
    var o := DeleteProfile(st, ip);
    assert o.st == Retire(p3.st, nick);
    forall f | f in o.st.users
      ensures o.st.users[f].friends == p2.st.users[f].friends
      ensures o.st.users[f].favorites == p2.st.users[f].favorites
      ensures o.st.users[f].(blacklist := st.users[f].blacklist) == p2.st.users[f]
    {
      assert f != nick;
    }
  }

  /** After a `delete_profile` that completes, each of the caller's dialogs
      is either gone or holds no row sent by the caller, and every other
      dialog is untouched. */
  lemma DeleteProfileClearsDialogs(st: State, ip: Address)
    requires DeleteProfile(st, ip).reply.Sent?
    ensures var o := DeleteProfile(st, ip);
      var nick := GetNick(st, ip).value;
      var u := st.users[nick];
      && o.st.logs.Keys <= st.logs.Keys
      && (forall d :: d in u.dialogs && d in o.st.logs ==> forall x :: x in o.st.logs[d] ==> x.sender != nick)
      && (forall e :: e in st.logs && e !in u.dialogs ==> e in o.st.logs && o.st.logs[e] == st.logs[e])
      && (forall d :: d in u.dialogs && d in o.st.logs ==> o.st.logs[d] == MarkDeleted(st.logs[d], nick))
  {
    var nick := GetNick(st, ip).value;
    var s1 := CloseSession(DropRequestsOf(st, nick), ip);
    var p2 := UnlinkFriends(s1, st.users[nick].friends, nick);
    assert p2.st.logs == st.logs;
    DropDialogsClears(p2.st, st.users[nick].dialogs, nick);
  }
}

=== FILE: dialog_ids.dfy ===
/** `_next_free_dialog`: the allocator of dialog numbers. The source lists
    every table whose name starts with `d`, parses the numbers, sorts them
    and scans for the first gap after the smallest one. */
module DialogIds {
  import Lists

  predicate Increasing(d: seq<int>) {
    forall i, j :: 0 <= i < j < |d| ==> d[i] < d[j]
  }

  predicate IsMin(m: int, s: set<int>) {
    m in s && forall y :: y in s ==> m <= y
  }

  lemma {:induction false} MinExists(s: set<int>)
    requires s != {}
    ensures exists m :: IsMin(m, s)
    decreases |s|
  {
    var x := Lists.Member(s);
    if s == {x} {
      assert IsMin(x, s);
    } else {
      MinExists(s - {x});
      var m :| IsMin(m, s - {x});
      forall y | y in s ensures y == x || y in s - {x} {
      }
      if x < m {
        assert IsMin(x, s);
      } else {
        assert IsMin(m, s);
      }
    }
  }

  /** The least member of a non-empty set of ids. */
  function MinId(s: set<int>): (m: int)
    requires s != {}
    ensures m in s
    ensures forall y :: y in s ==> m <= y
  {
    MinExists(s);
    var m :| IsMin(m, s);
    m
  }

  /** `sorted(...)` over the distinct existing ids. */
  function SortedIds(s: set<int>): (r: seq<int>)
    ensures Increasing(r)
    ensures forall x :: x in r ==> x in s
    ensures forall x :: x in s ==> x in r
    decreases |s|
  {
    if s == {} then []
    else
      var m := MinId(s);
      var rest := SortedIds(s - {m});
      assert forall x :: x in rest ==> m < x;
      [m] + rest
  }

  /** The `for i in range(1, len(dialogs))` loop from index `i` on. */
  function Scan(d: seq<int>, i: int): int
    requires 1 <= i <= |d|
    decreases |d| - i
  {
    if i == |d| then d[|d| - 1] + 1
    else if d[i] - d[i - 1] != 1 then d[i - 1] + 1
    else Scan(d, i + 1)
  }

  /** The allocator over the sorted id list, branch for branch. */
  function NextFree(d: seq<int>): int {
    if |d| == 0 then 1 else Scan(d, 1)
  }

  /** The ids `d[0] .. d[i-1]` form a consecutive run. */
  predicate RunUpTo(d: seq<int>, i: int)
    requires 1 <= i <= |d|
  {
    forall k :: 0 <= k < i ==> d[k] == d[0] + k
  }

  /** The scan stops just after the consecutive run that starts at `d[0]`:
      the result is unused, and every number from `d[0]` up to it is used. */
  lemma {:induction false} ScanFindsFirstGap(d: seq<int>, i: int)
    requires Increasing(d) && 1 <= i <= |d| && RunUpTo(d, i)
    ensures Scan(d, i) !in d
    ensures Scan(d, i) > d[0]
    ensures forall v :: d[0] <= v < Scan(d, i) ==> v in d
    decreases |d| - i
  {
    var r := Scan(d, i);
    if i == |d| {
      assert r == d[0] + |d|;
      forall v | d[0] <= v < r ensures v in d {
        assert d[v - d[0]] == v;
      }
    } else if d[i] - d[i - 1] != 1 {
      assert r == d[0] + i;
      forall k | 0 <= k < |d| ensures d[k] != r {
        if k >= i {
          assert d[k] >= d[i] > r;
        }
      }
      forall v | d[0] <= v < r ensures v in d {
        assert d[v - d[0]] == v;
      }
    } else {
      ScanFindsFirstGap(d, i + 1);
    }
  }

  /** `_next_free_dialog` over the set of existing ids: 1 when there are
      none; otherwise the first unused number after the smallest id, so it
      never reuses an id and never fills a gap below the smallest one. */
  function NextFreeId(ids: set<int>): (r: int)
    ensures r !in ids
    ensures ids == {} ==> r == 1
    ensures ids != {} ==> r > MinId(ids) && r - 1 in ids
    ensures ids != {} ==> forall v :: MinId(ids) <= v < r ==> v in ids
    ensures (forall x :: x in ids ==> x >= 0) ==> r >= 1
  {
    var d := SortedIds(ids);
    if ids != {} then
      assert |d| > 0;
      assert d[0] == MinId(ids) by {
        assert d[0] in ids;
        assert forall k :: 0 <= k < |d| ==> d[0] <= d[k];
      }
      ScanFindsFirstGap(d, 1);
      NextFree(d)
    else
      NextFree(d)
  }

  /** The three facts of `NextFreeId` pin its value down: a number `g` that
      is unused, follows a used id, and closes the run from the smallest id is
      the allocator's answer. */
  lemma FirstGapIsNext(ids: set<int>, g: int)
    requires ids != {}
    requires g !in ids && g - 1 in ids
    requires forall v :: MinId(ids) <= v < g ==> v in ids
    ensures NextFreeId(ids) == g
  {
    var r := NextFreeId(ids);
    assert r - 1 in ids;
  }

  /** The worked allocations: none gives 1, {1,2,4} gives 3, {1,2,3}
      gives 4, and {2,3} gives 4 (the gap at 1 is not filled). */
  lemma AllocationExamples()
    ensures NextFreeId({}) == 1
    ensures NextFreeId({1, 2, 4}) == 3
    ensures NextFreeId({1, 2, 3}) == 4
    ensures NextFreeId({2, 3}) == 4
  {
    assert MinId({1, 2, 4}) == 1;
    FirstGapIsNext({1, 2, 4}, 3);
    assert MinId({1, 2, 3}) == 1;
    FirstGapIsNext({1, 2, 3}, 4);
    assert MinId({2, 3}) == 2;
    FirstGapIsNext({2, 3}, 4);
  }

  /** The ids 1..n. */
  function Run(n: nat): set<int> {
    if n == 0 then {} else Run(n - 1) + {n}
  }

  lemma {:induction false} RunMembers(n: nat)
    ensures forall k :: k in Run(n) <==> 1 <= k <= n
  {
    if n > 0 {
      RunMembers(n - 1);
    }
  }

  /** When the ids are exactly 1..n, the next id is n + 1. */
  lemma ContiguousRunGivesSuccessor(n: nat)
    ensures NextFreeId(Run(n)) == n + 1
  {
    RunMembers(n);
    if n > 0 {
      assert 1 in Run(n);
      assert MinId(Run(n)) == 1;
      FirstGapIsNext(Run(n), n + 1);
    }
  }
}

=== FILE: dialog_log.dfy ===
/** The per-dialog logs: the ordered read of `message_history`, the filter
    of `search_msg`, the append of `send_message`, and `_delete_dialog`'s
    choice between marking a log deleted-for-one and dropping it. */
module DialogLog {
  import opened Wrappers
  import opened Lists
  import opened Store
  import Text
  import DialogIds

  predicate SortedByTime(rows: seq<Row>) {
    forall i, j :: 0 <= i < j < |rows| ==> rows[i].timestamp <= rows[j].timestamp
  }

  /** A row no later than the head of a sorted log can go in front of it. */
  lemma SortedCons(y: Row, t: seq<Row>)
    requires SortedByTime(t)
    requires t == [] || y.timestamp <= t[0].timestamp
    ensures SortedByTime([y] + t)
  {
    var r := [y] + t;
    forall i, j | 0 <= i < j < |r|
      ensures r[i].timestamp <= r[j].timestamp
    {
      assert r[j] == t[j - 1];
      if i > 0 {
        assert r[i] == t[i - 1];
      } else if j > 1 {
        assert t[0].timestamp <= t[j - 1].timestamp;
      }
    }
  }

  /** The tail of a sorted log is sorted. */
  lemma SortedTail(rows: seq<Row>)
    requires SortedByTime(rows) && rows != []
    ensures SortedByTime(rows[1..])
  {
    forall i, j | 0 <= i < j < |rows| - 1
      ensures rows[1..][i].timestamp <= rows[1..][j].timestamp
    {
      assert rows[1..][i] == rows[i + 1] && rows[1..][j] == rows[j + 1];
    }
  }

  /** Puts `x` before the first row that is not earlier than it. */
  function InsertByTime(x: Row, rows: seq<Row>): (r: seq<Row>)
    requires SortedByTime(rows)
    ensures SortedByTime(r)
    ensures multiset(r) == multiset(rows) + multiset{x}
    ensures |r| == |rows| + 1
    ensures r[0] == x || (|rows| > 0 && r[0] == rows[0])
  {
    if rows == [] || x.timestamp <= rows[0].timestamp then
      SortedCons(x, rows);
      [x] + rows
    else
      SortedTail(rows);
      var t := InsertByTime(x, rows[1..]);
      assert rows == [rows[0]] + rows[1..];
      assert multiset(rows) == multiset{rows[0]} + multiset(rows[1..]);
      assert rows[0].timestamp <= t[0].timestamp by {
        if t[0] != x {
          assert rows[1..][0] == rows[1];
        }
      }
      SortedCons(rows[0], t);
      [rows[0]] + t
  }

  /** `SELECT * FROM d<n> ORDER BY timestamp`: the rows in timestamp order
      (rows with equal timestamps keep their stored order). */
  function SortByTime(rows: seq<Row>): (r: seq<Row>)
    ensures SortedByTime(r)
    ensures multiset(r) == multiset(rows)
    ensures |r| == |rows|
  {
    if rows == [] then []
    else
      assert rows == [rows[0]] + rows[1..];
      InsertByTime(rows[0], SortByTime(rows[1..]))
  }

  /** Python's `s[a:]`, negative `a` counting from the end. */
  function PySliceFrom<T>(s: seq<T>, a: int): seq<T> {
    if a < 0 then s[(if |s| + a < 0 then 0 else |s| + a)..]
    else s[(if a > |s| then |s| else a)..]
  }

  /** `msgs[-count:]` over the ordered log, for `count >= 0`: all rows when
      `count` is 0, otherwise the last `min(count, n)` rows, still in
      timestamp order. */
  function History(rows: seq<Row>, count: nat): (r: seq<Row>)
    ensures SortedByTime(r)
    ensures count == 0 ==> |r| == |rows|
    ensures count > 0 ==> |r| == (if count < |rows| then count else |rows|)
    ensures r == SortByTime(rows)[|rows| - |r|..]
    ensures multiset(r) <= multiset(rows)
  {
    var all := SortByTime(rows);
    var from: int := -(count as int);
    var k := if count == 0 || count > |all| then 0 else |all| - count;
    assert PySliceFrom(all, from) == all[k..];
    SortedSuffix(all, k);
    assert all == all[..k] + all[k..];
    assert multiset(all) == multiset(all[..k]) + multiset(all[k..]);
    all[k..]
  }

  /** A suffix of a sorted log is sorted. */
  lemma SortedSuffix(s: seq<Row>, k: nat)
    requires SortedByTime(s) && k <= |s|
    ensures SortedByTime(s[k..])
  {
    forall i, j | 0 <= i < j < |s| - k
      ensures s[k..][i].timestamp <= s[k..][j].timestamp
    {
      assert s[k..][i] == s[k + i] && s[k..][j] == s[k + j];
    }
  }

  /** A sorted list followed by a row no earlier than any of its rows is
      sorted. */
  lemma SortedAppend(s: seq<Row>, x: Row)
    requires SortedByTime(s) && forall i :: 0 <= i < |s| ==> s[i].timestamp <= x.timestamp
    ensures SortedByTime(s + [x])
  {
    var sx := s + [x];
    forall i, j | 0 <= i < j < |sx|
      ensures sx[i].timestamp <= sx[j].timestamp
    {
      if j < |s| {
        assert sx[i] == s[i] && sx[j] == s[j];
      } else {
        assert sx[i] == s[i] && sx[j] == x;
      }
    }
  }

  /** Inserting a row no later than `x` in front of a list that ends with
      `x` leaves `x` last. */
  lemma {:induction false} InsertKeepsLast(y: Row, s: seq<Row>, x: Row)
    requires SortedByTime(s) && forall i :: 0 <= i < |s| ==> s[i].timestamp <= x.timestamp
    requires y.timestamp <= x.timestamp
    ensures SortedByTime(s + [x])
    ensures InsertByTime(y, s + [x]) == InsertByTime(y, s) + [x]
    decreases |s|
  {
    SortedAppend(s, x);
    if s == [] || y.timestamp <= s[0].timestamp {
      InsertInFront(y, s, x);
    } else {
      var t := s[1..];
      assert forall i :: 0 <= i < |t| ==> t[i] == s[i + 1];
      InsertKeepsLast(y, t, x);
      InsertPast(y, s, x);
    }
  }

  /** The other step of `InsertKeepsLast`: `y` goes in front. */
  lemma InsertInFront(y: Row, s: seq<Row>, x: Row)
    requires SortedByTime(s) && SortedByTime(s + [x]) && y.timestamp <= x.timestamp
    requires s == [] || y.timestamp <= s[0].timestamp
    ensures InsertByTime(y, s + [x]) == InsertByTime(y, s) + [x]
  {
    assert (s + [x])[0] == if s == [] then x else s[0];
    assert InsertByTime(y, s + [x]) == [y] + (s + [x]);
  }

  /** One step of `InsertKeepsLast`: past a head row earlier than `y`. */
  lemma InsertPast(y: Row, s: seq<Row>, x: Row)
    requires SortedByTime(s) && SortedByTime(s + [x]) && s != [] && y.timestamp > s[0].timestamp
    requires SortedByTime(s[1..]) && SortedByTime(s[1..] + [x])
    requires InsertByTime(y, s[1..] + [x]) == InsertByTime(y, s[1..]) + [x]
    ensures InsertByTime(y, s + [x]) == InsertByTime(y, s) + [x]
  {
    var u := InsertByTime(y, s[1..]);
    calc {
      InsertByTime(y, s + [x]);
      { InsertPastAppended(y, s, x); }
      [s[0]] + InsertByTime(y, s[1..] + [x]);
      [s[0]] + (u + [x]);
      ([s[0]] + u) + [x];
      InsertByTime(y, s) + [x];
    }
  }

  /** `InsertByTime` on `s + [x]` passes the head of `s` when it is earlier
      than `y`. */
  lemma InsertPastAppended(y: Row, s: seq<Row>, x: Row)
    requires SortedByTime(s + [x]) && s != [] && y.timestamp > s[0].timestamp
    requires SortedByTime(s[1..] + [x])
    ensures InsertByTime(y, s + [x]) == [s[0]] + InsertByTime(y, s[1..] + [x])
  {
    var sx := s + [x];
    assert sx[0] == s[0] && sx[1..] == s[1..] + [x];
  }

  /** A row no earlier than every stored row comes last in timestamp order. */
  lemma {:induction false} LatestSortsLast(rows: seq<Row>, x: Row)
    requires forall r :: r in rows ==> r.timestamp <= x.timestamp
    ensures SortByTime(rows + [x]) == SortByTime(rows) + [x]
    decreases |rows|
  {
    if rows == [] {
      assert [] + [x] == [x];
    } else {
      var tail := rows[1..];
      assert forall r :: r in tail ==> r in rows;
      LatestSortsLast(tail, x);
      SortedStaysBounded(tail, x);
      InsertKeepsLast(rows[0], SortByTime(tail), x);
      SortAppendedUnfolds(rows, x);
    }
  }

  /** Sorting keeps every row no later than `x` when all were. */
  lemma SortedStaysBounded(rows: seq<Row>, x: Row)
    requires forall r :: r in rows ==> r.timestamp <= x.timestamp
    ensures forall i :: 0 <= i < |SortByTime(rows)| ==> SortByTime(rows)[i].timestamp <= x.timestamp
  {
    var t := SortByTime(rows);
    forall i | 0 <= i < |t|
      ensures t[i].timestamp <= x.timestamp
    {
      assert t[i] in multiset(t);
    }
  }

  /** The first step of `SortByTime` on a list with `x` appended. */
  lemma SortAppendedUnfolds(rows: seq<Row>, x: Row)
    requires rows != []
    ensures SortByTime(rows + [x]) == InsertByTime(rows[0], SortByTime(rows[1..] + [x]))
  {
    var rx := rows + [x];
    AppendedTail(rows, x);
    assert SortByTime(rx) == InsertByTime(rx[0], SortByTime(rx[1..]));
  }

  /** The head and tail of a non-empty list with `x` appended. */
  lemma AppendedTail<T>(s: seq<T>, x: T)
    requires s != []
    ensures (s + [x])[0] == s[0] && (s + [x])[1..] == s[1..] + [x]
  {
  }

  /** `message_history` with count 1 right after a message stamped no
      earlier than the rest returns exactly that message. */
  lemma LatestIsLastOfHistory(rows: seq<Row>, x: Row)
    requires forall r :: r in rows ==> r.timestamp <= x.timestamp
    ensures History(rows + [x], 1) == [x]
  {
    LatestSortsLast(rows, x);
    var r := History(rows + [x], 1);
    assert |r| == 1;
  }

  /** The `search_msg` condition: `POSITION(text IN content) > 0` and the
      timestamp `BETWEEN lower AND upper` (both ends included). */
  predicate Matches(row: Row, text: string, lower: int, upper: int) {
    Text.Contains(row.content, text) && lower <= row.timestamp <= upper
  }

  /** The `search_msg` condition as a test on one row. */
  function MatchTest(text: string, lower: int, upper: int): Row -> bool {
    (x: Row) => Matches(x, text, lower, upper)
  }

  /** The rows of a log that match, in stored order, each as often as it
      is stored. */
  function SearchRows(rows: seq<Row>, text: string, lower: int, upper: int): (r: seq<Row>)
    ensures forall x :: x in r ==> x in rows && Matches(x, text, lower, upper)
    ensures forall x :: x in rows && Matches(x, text, lower, upper) ==> x in r
    ensures forall x :: multiset(r)[x] == if Matches(x, text, lower, upper) then multiset(rows)[x] else 0
    ensures lower > upper ==> r == []
  {
    var p := MatchTest(text, lower, upper);
    var r := Filter(rows, p);
    assert |r| > 0 ==> r[0] in r && Matches(r[0], text, lower, upper);
    assert forall x :: multiset(r)[x] == if Matches(x, text, lower, upper) then multiset(rows)[x] else 0 by {
      forall x ensures multiset(r)[x] == if p(x) then multiset(rows)[x] else 0 {
        FilterCount(rows, p, x);
      }
    }
    r
  }

  /** `search_msg` returns the rows in the order they are stored: the
      result for a concatenation is the results for the parts in turn, and
      a single row comes back exactly when it matches. */
  lemma SearchRowsInOrder(a: seq<Row>, b: seq<Row>, text: string, lower: int, upper: int)
    ensures SearchRows(a + b, text, lower, upper) == SearchRows(a, text, lower, upper) + SearchRows(b, text, lower, upper)
    ensures forall x :: SearchRows([x], text, lower, upper) == if Matches(x, text, lower, upper) then [x] else []
  {
    var p := MatchTest(text, lower, upper);
    FilterAppend(a, b, p);
    forall x ensures SearchRows([x], text, lower, upper) == if Matches(x, text, lower, upper) then [x] else [] {
      FilterSingle(x, p);
    }
  }

  /** The sender value that marks a row as deleted by `user`. */
  function Tombstone(user: Name): Name {
    ['~'] + user
  }

  /** `UPDATE d<n> SET sender = '~' || user WHERE sender = user`. */
  function MarkDeleted(rows: seq<Row>, user: Name): (r: seq<Row>)
    ensures |r| == |rows|
    ensures forall i :: 0 <= i < |rows| ==>
      r[i].content == rows[i].content && r[i].timestamp == rows[i].timestamp
    ensures forall i :: 0 <= i < |rows| && rows[i].sender != user ==> r[i] == rows[i]
    ensures forall i :: 0 <= i < |rows| && rows[i].sender == user ==> r[i].sender == Tombstone(user)
    ensures forall x :: x in r ==> x.sender != user
  {
    if rows == [] then []
    else
      var head := if rows[0].sender == user then rows[0].(sender := Tombstone(user)) else rows[0];
      assert |Tombstone(user)| != |user|;
      [head] + MarkDeleted(rows[1..], user)
  }

  /** Marking a log a second time changes nothing. */
  lemma MarkDeletedTwice(rows: seq<Row>, user: Name)
    ensures MarkDeleted(MarkDeleted(rows, user), user) == MarkDeleted(rows, user)
  {
    var m := MarkDeleted(rows, user);
    assert forall i :: 0 <= i < |m| ==> m[i] in m;
  }

  /** The sender of the first row not written by `user`:
      `SELECT sender FROM d<n> WHERE sender != user` then `fetchone()`. */
  function FirstOtherSender(rows: seq<Row>, user: Name): (r: Option<Name>)
    ensures r.None? <==> forall x :: x in rows ==> x.sender == user
    ensures r.Some? ==> r.value != user && exists x :: x in rows && x.sender == r.value
  {
    if rows == [] then None
    else if rows[0].sender != user then Some(rows[0].sender)
    else FirstOtherSender(rows[1..], user)
  }

  /** `_delete_dialog`'s test: the log goes when nobody else wrote in it, or
      when the first row by somebody else is already marked deleted. */
  predicate Abandoned(rows: seq<Row>, user: Name) {
    match FirstOtherSender(rows, user)
    case None => true
    case Some(s) => |s| > 0 && s[0] == '~'
  }

  /** `_delete_dialog(d, user)`. A missing table, or an empty sender name in
      the probed row, is a fault. Otherwise the log is dropped when
      `Abandoned`, else `user`'s rows are marked deleted and every other row
      stays; in both cases `d` leaves `user`'s dialogs, and only `user`'s. */
  function DeleteDialog(st: State, d: int, user: Name): (r: Result<State, Error>)
    ensures d !in st.logs ==> r == Err(StoreFault)
    ensures d in st.logs && FirstOtherSender(st.logs[d], user) == Some([]) ==> r == Err(StoreFault)
    ensures d in st.logs && FirstOtherSender(st.logs[d], user) != Some([]) ==>
      (r.Err? <==> user !in st.users)
    ensures r.Ok? ==>
      && d in st.logs
      && r.value.users.Keys == st.users.Keys
      && (forall n :: n in st.users && n != user ==> r.value.users[n] == st.users[n])
      && r.value.users[user] == st.users[user].(dialogs := r.value.users[user].dialogs)
      && (forall y :: y in r.value.users[user].dialogs ==> y in st.users[user].dialogs)
      && (forall y :: y in st.users[user].dialogs && y != d ==> y in r.value.users[user].dialogs)
      && (NoDup(st.users[user].dialogs) ==> NoDup(r.value.users[user].dialogs) && d !in r.value.users[user].dialogs)
      && r.value.profiles == st.profiles && r.value.requests == st.requests && r.value.sessions == st.sessions
      && (forall e :: e != d ==> (e in r.value.logs <==> e in st.logs))
      && (forall e :: e in st.logs && e != d ==> r.value.logs[e] == st.logs[e])
      && (Abandoned(st.logs[d], user) ==> d !in r.value.logs)
      && (!Abandoned(st.logs[d], user) ==> d in r.value.logs && r.value.logs[d] == MarkDeleted(st.logs[d], user))
  {
    if d !in st.logs then Err(StoreFault)
    else
      var rows := st.logs[d];
      match FirstOtherSender(rows, user)
      case None => RemoveDialogFrom(st.(logs := st.logs - {d}), user, d)
      case Some(s) =>
        if |s| == 0 then Err(StoreFault)
        else if s[0] == '~' then RemoveDialogFrom(st.(logs := st.logs - {d}), user, d)
        else RemoveDialogFrom(st.(logs := st.logs[d := MarkDeleted(rows, user)]), user, d)
  }

  /** `_next_free_dialog` over the existing dialog tables. */
  function NextDialogId(st: State): (d: int)
    ensures d !in st.logs
    ensures (forall e :: e in st.logs ==> e >= 1) ==> d >= 1
  {
    DialogIds.NextFreeId(st.logs.Keys)
  }
}

=== FILE: dialogs.dfy ===
/** The dialog handlers: `create_dialog`, `send_message`,
    `message_history` and `search_msg`. */
module Dialogs {
  import opened Wrappers
  import opened Lists
  import opened Store
  import opened Protocol
  import opened DialogLog

  /** An id listed in both `a` and `b`, if there is one. `set.pop()` on the
      intersection picks an arbitrary member; the model takes the first
      shared id in `a`'s order. */
  function CommonDialog(a: seq<int>, b: seq<int>): (r: Option<int>)
    ensures r.Some? <==> exists i :: 0 <= i < |a| && a[i] in b
    ensures r.Some? ==> r.value in a && r.value in b
  {
    if a == [] then None
    else if a[0] in b then
      Some(a[0])
    else
      assert forall i :: 1 <= i < |a| ==> a[i] == a[1..][i - 1];
      CommonDialog(a[1..], b)
  }

  /** `create_dialog`: only towards someone in the caller's friends or
      blacklist. A dialog the two already share is returned as it is, even
      when its table is gone; otherwise a fresh id from the allocator gets an
      empty log and is added to both lists. Asking for a dialog with oneself
      passes the checks and then fails on the missing second row. */
  function CreateDialog(st: State, ip: Address, user: Name): (o: Outcome)
    ensures o.reply.Raised? ==> o.st == st
    ensures o.reply.Raised? && o.reply.err == StoreFault <==>
      && GetNick(st, ip).Ok? && user in st.users
      && GetNick(st, ip).value == user
      && (user in st.users[user].friends || user in st.users[user].blacklist)
    ensures o.reply.Sent? <==>
      && GetNick(st, ip).Ok? && user in st.users
      && var nick := GetNick(st, ip).value;
         && nick in st.users && nick != user
         && (user in st.users[nick].friends || user in st.users[nick].blacklist)
    ensures o.reply.Sent? ==>
      var nick := GetNick(st, ip).value;
      && o.reply.resp.code == CreateDialogSucc
      && o.reply.resp.data.DialogNumber?
      && o.st.users.Keys == st.users.Keys
      && var d := o.reply.resp.data.id;
      && d in o.st.users[nick].dialogs && d in o.st.users[user].dialogs
      && (CommonDialog(st.users[nick].dialogs, st.users[user].dialogs).Some? ==> o.st == st)
      && (CommonDialog(st.users[nick].dialogs, st.users[user].dialogs).None? ==>
            && d == NextDialogId(st)
            && d !in st.logs
            && o.st.logs == st.logs[d := []]
            && Frame(st.(logs := o.st.logs), o.st, {nick, user})
            && o.st.requests == st.requests
            && o.st.users[nick] == st.users[nick].(dialogs := o.st.users[nick].dialogs)
            && o.st.users[user] == st.users[user].(dialogs := o.st.users[user].dialogs)
            && (forall y :: y in o.st.users[nick].dialogs <==> y in st.users[nick].dialogs || y == d)
            && (forall y :: y in o.st.users[user].dialogs <==> y in st.users[user].dialogs || y == d)
            && ((forall e :: e in st.logs ==> e >= 1) ==> d >= 1)
            && (Coherent(st.users[nick]) ==> Coherent(o.st.users[nick]))
            && (Coherent(st.users[user]) ==> Coherent(o.st.users[user])))
  {
    match GetNick(st, ip)
    case Err(e) => Outcome(st, Raised(e))
    case Ok(nick) =>
      if !UserExists(st, user) then Outcome(st, Raised(BadRequest))
      else if nick !in st.users || (user !in st.users[nick].friends && user !in st.users[nick].blacklist) then
        Outcome(st, Raised(BadRequest))
      else if nick == user then Outcome(st, Raised(StoreFault))
      else
        match CommonDialog(st.users[nick].dialogs, st.users[user].dialogs)
        case Some(d) => Done(st, CreateDialogSucc, DialogNumber(d))
        case None =>
          var d := NextDialogId(st);
          var s1 := st.(logs := st.logs[d := []]);
          var s2 := AddDialog(s1, nick, d);
          var s3 := AddDialog(s2, user, d);
          assert s3.users[nick] == s2.users[nick];
          Done(s3, CreateDialogSucc, DialogNumber(d))
  }

  /** The longest message `send_message` accepts. */
  const MaxMessageLength := 1000

  /** The range of the `bigint` column a dialog table stores timestamps in. */
  predicate FitsBigint(n: int) {
    -0x8000_0000_0000_0000 <= n < 0x8000_0000_0000_0000
  }

  /** `send_message`: a non-integer dialog and an over-long text are refused
      before anything else; then the caller must list the dialog, and the
      other participant must not have the caller blacklisted. The row
      (text, time, caller) is appended to the log. The insert faults, and is
      rolled back, when the log is gone or the time does not fit `bigint`. */
  function SendMessage(st: State, ip: Address, msg: string, tm: int, dialog: Value): (o: Outcome)
    ensures o.reply.Raised? ==> o.st == st
    ensures !dialog.IntVal? || |msg| > MaxMessageLength ==> o.reply == Raised(BadRequest)
    ensures o.reply.Raised? && o.reply.err == StoreFault <==>
      && dialog.IntVal? && |msg| <= MaxMessageLength
      && GetNick(st, ip).Ok? && InDialog(st, GetNick(st, ip).value, dialog).Ok?
      && !(Collocutor(st, dialog.i, GetNick(st, ip).value).Some? &&
           IsBlacklisted(st, GetNick(st, ip).value, Collocutor(st, dialog.i, GetNick(st, ip).value).value))
      && (dialog.i !in st.logs || !FitsBigint(tm))
    ensures o.reply.Sent? <==>
      && dialog.IntVal? && |msg| <= MaxMessageLength
      && GetNick(st, ip).Ok? && InDialog(st, GetNick(st, ip).value, dialog).Ok?
      && !(Collocutor(st, dialog.i, GetNick(st, ip).value).Some? &&
           IsBlacklisted(st, GetNick(st, ip).value, Collocutor(st, dialog.i, GetNick(st, ip).value).value))
      && dialog.i in st.logs && FitsBigint(tm)
    ensures o.reply.Sent? ==>
      && o.reply.resp == Response(MessageReceived, Nothing)
      && o.st == st.(logs := st.logs[dialog.i := st.logs[dialog.i] + [Row(msg, tm, GetNick(st, ip).value)]])
  {
    if !dialog.IntVal? || |msg| > MaxMessageLength then Outcome(st, Raised(BadRequest))
    else match GetNick(st, ip)
      case Err(e) => Outcome(st, Raised(e))
      case Ok(nick) =>
        match InDialog(st, nick, dialog)
        case Err(e) => Outcome(st, Raised(e))
        case Ok(d) =>
          var other := Collocutor(st, d, nick);
          if other.Some? && IsBlacklisted(st, nick, other.value) then Outcome(st, Raised(BadRequest))
          else if d !in st.logs || !FitsBigint(tm) then Outcome(st, Raised(StoreFault))
          else Done(st.(logs := st.logs[d := st.logs[d] + [Row(msg, tm, nick)]]), MessageReceived, Nothing)
  }

  /** `message_history`: a negative count is refused before the session is
      looked up; the caller must list the dialog; the reply is the last
      `count` rows in timestamp order, all of them for 0. */
  function MessageHistory(st: State, ip: Address, count: int, dialog: Value): (o: Outcome)
    ensures o.st == st
    ensures count < 0 ==> o.reply == Raised(BadRequest)
    ensures o.reply.Raised? && o.reply.err == StoreFault <==>
      && count >= 0 && GetNick(st, ip).Ok?
      && InDialog(st, GetNick(st, ip).value, dialog).Ok? && dialog.i !in st.logs
    ensures o.reply.Sent? <==>
      && count >= 0 && GetNick(st, ip).Ok?
      && InDialog(st, GetNick(st, ip).value, dialog).Ok? && dialog.i in st.logs
    ensures o.reply.Sent? ==>
      && o.reply.resp.code == ServerCode.MessageHistory
      && o.reply.resp.data == Messages(History(st.logs[dialog.i], count))
  {
    if count < 0 then Outcome(st, Raised(BadRequest))
    else match GetNick(st, ip)
      case Err(e) => Outcome(st, Raised(e))
      case Ok(nick) =>
        match InDialog(st, nick, dialog)
        case Err(e) => Outcome(st, Raised(e))
        case Ok(d) =>
          if d !in st.logs then Outcome(st, Raised(StoreFault))
          else Done(st, ServerCode.MessageHistory, Messages(History(st.logs[d], count)))
  }

  /** `search_msg`: an empty time window is refused before the session is
      looked up; otherwise the rows of a listed dialog whose text contains
      `text` and whose time lies in the window, both ends included. */
  function SearchMsg(st: State, ip: Address, dialog: Value, text: string, lower: int, upper: int): (o: Outcome)
    ensures o.st == st
    ensures lower > upper ==> o.reply == Raised(BadRequest)
    ensures o.reply.Raised? && o.reply.err == StoreFault <==>
      && lower <= upper && GetNick(st, ip).Ok?
      && InDialog(st, GetNick(st, ip).value, dialog).Ok? && dialog.i !in st.logs
    ensures o.reply.Sent? <==>
      && lower <= upper && GetNick(st, ip).Ok?
      && InDialog(st, GetNick(st, ip).value, dialog).Ok? && dialog.i in st.logs
    ensures o.reply.Sent? ==>
      && o.reply.resp.code == SearchMsgResult
      && o.reply.resp.data.Messages?
      && (forall x :: x in o.reply.resp.data.rows <==> x in st.logs[dialog.i] && Matches(x, text, lower, upper))
      && (forall x :: multiset(o.reply.resp.data.rows)[x] ==
            if Matches(x, text, lower, upper) then multiset(st.logs[dialog.i])[x] else 0)
      && o.reply.resp.data.rows == SearchRows(st.logs[dialog.i], text, lower, upper)
  {
    if lower > upper then Outcome(st, Raised(BadRequest))
    else match GetNick(st, ip)
      case Err(e) => Outcome(st, Raised(e))
      case Ok(nick) =>
        match InDialog(st, nick, dialog)
        case Err(e) => Outcome(st, Raised(e))
        case Ok(d) =>
          if d !in st.logs then Outcome(st, Raised(StoreFault))
          else Done(st, SearchMsgResult, Messages(SearchRows(st.logs[d], text, lower, upper)))
  }
}

=== FILE: invariants.dfy ===
/** The shape of the store that every request handler keeps: duplicate-free
    arrays with favorites among friends, at most one pending request per
    pair of users, a profile row for exactly the users, and dialog numbers
    from 1 up. A store that starts empty has it, so every store reached by
    a run of requests has it. */
module Invariants {
  import opened Wrappers
  import opened Lists
  import opened Store
  import opened Protocol
  import SocialGraph
  import Queries
  import Dialogs
  import Accounts

  /** No request row twice, none to oneself, and at most one between any
      two users whichever way it points. */
  predicate RequestsWellFormed(rs: seq<AddRequest>) {
    && NoDup(rs)
    && (forall q :: q in rs ==> q.from != q.to)
    && (forall p, q :: p in rs && q in rs && Links(q, p.from, p.to) ==> p == q)
  }

  predicate Valid(st: State) {
    && (forall n :: n in st.users ==> Coherent(st.users[n]))
    && RequestsWellFormed(st.requests)
    && st.profiles.Keys == st.users.Keys
    && (forall d :: d in st.logs ==> d >= 1)
  }

  /** The store before the first request. */
  const Empty := State(map[], map[], [], [], map[])

  lemma EmptyIsValid()
    ensures Valid(Empty)
  {
  }

  /** Dropping rows keeps the request table well formed. */
  lemma FewerRequests(rs: seq<AddRequest>, rs': seq<AddRequest>)
    requires RequestsWellFormed(rs) && NoDup(rs')
    requires forall q :: q in rs' ==> q in rs
    ensures RequestsWellFormed(rs')
  {
  }

  /** A store that differs from a valid one only in the rows of `a` and
      `b`, each still coherent, and in fewer request rows, is valid. */
  lemma ValidAfterTouch(st: State, st': State, a: Name, b: Name)
    requires Valid(st)
    requires Frame(st, st', {a, b})
    requires a in st'.users ==> Coherent(st'.users[a])
    requires b in st'.users ==> Coherent(st'.users[b])
    requires NoDup(st'.requests) && forall q :: q in st'.requests ==> q in st.requests
    ensures Valid(st')
  {
    FewerRequests(st.requests, st'.requests);
  }

  /** Dropping request rows from a valid store keeps it valid. */
  lemma ValidAfterDrop(st: State, st': State)
    requires Valid(st)
    requires st' == st.(requests := st'.requests)
    requires NoDup(st'.requests) && forall q :: q in st'.requests ==> q in st.requests
    ensures Valid(st')
  {
    FewerRequests(st.requests, st'.requests);
  }

  lemma AddToBlacklistKeepsValid(st: State, ip: Address, user: Name)
    requires Valid(st)
    ensures Valid(SocialGraph.AddToBlacklist(st, ip, user).st)
  {
    var o := SocialGraph.AddToBlacklist(st, ip, user);
    if o.reply.Sent? {
      ValidAfterTouch(st, o.st, GetNick(st, ip).value, GetNick(st, ip).value);
    }
  }

  lemma DeleteFromFriendsKeepsValid(st: State, ip: Address, user: Name)
    requires Valid(st)
    ensures Valid(SocialGraph.DeleteFromFriends(st, ip, user).st)
  {
    var o := SocialGraph.DeleteFromFriends(st, ip, user);
    if o.reply.Sent? {
      ValidAfterTouch(st, o.st, GetNick(st, ip).value, user);
    }
  }

  lemma SendRequestKeepsValid(st: State, ip: Address, user: Name, msg: string)
    requires Valid(st)
    ensures Valid(SocialGraph.SendRequest(st, ip, user, msg).st)
  {
    var o := SocialGraph.SendRequest(st, ip, user, msg);
    if o.reply.Sent? {
      var nick := GetNick(st, ip).value;
      var q := AddRequest(nick, user, msg);
      assert q !in st.requests;
    }
  }

  lemma ConfirmAddRequestKeepsValid(st: State, ip: Address, user: Name)
    requires Valid(st)
    ensures Valid(SocialGraph.ConfirmAddRequest(st, ip, user).st)
  {
    var o := SocialGraph.ConfirmAddRequest(st, ip, user);
    if o.st != st {
      var nick := GetNick(st, ip).value;
      ValidAfterTouch(st, o.st, nick, user);
    }
  }

  lemma DeclineAddRequestKeepsValid(st: State, ip: Address, user: Name)
    requires Valid(st)
    ensures Valid(SocialGraph.DeclineAddRequest(st, ip, user).st)
  {
    var o := SocialGraph.DeclineAddRequest(st, ip, user);
    if o.reply.Sent? {
      ValidAfterDrop(st, o.st);
    }
  }

  lemma TakeRequestBackKeepsValid(st: State, ip: Address, user: Name)
    requires Valid(st)
    ensures Valid(SocialGraph.TakeRequestBack(st, ip, user).st)
  {
    var o := SocialGraph.TakeRequestBack(st, ip, user);
    if o.reply.Sent? {
      ValidAfterDrop(st, o.st);
    }
  }

  lemma AddToFavoritesKeepsValid(st: State, ip: Address, user: Name)
    requires Valid(st)
    ensures Valid(SocialGraph.AddToFavorites(st, ip, user).st)
  {
    var o := SocialGraph.AddToFavorites(st, ip, user);
    if o.reply.Sent? {
      ValidAfterTouch(st, o.st, GetNick(st, ip).value, GetNick(st, ip).value);
    }
  }

  lemma RemoveFromFavoritesKeepsValid(st: State, ip: Address, user: Name)
    requires Valid(st)
    ensures Valid(SocialGraph.RemoveFromFavorites(st, ip, user).st)
  {
    var o := SocialGraph.RemoveFromFavorites(st, ip, user);
    if o.reply.Sent? {
      ValidAfterTouch(st, o.st, GetNick(st, ip).value, GetNick(st, ip).value);
    }
  }

  lemma RemoveFromBlacklistKeepsValid(st: State, ip: Address, user: Name)
    requires Valid(st)
    ensures Valid(SocialGraph.RemoveFromBlacklist(st, ip, user).st)
  {
    var o := SocialGraph.RemoveFromBlacklist(st, ip, user);
    if o.reply.Sent? {
      ValidAfterTouch(st, o.st, GetNick(st, ip).value, GetNick(st, ip).value);
    }
  }

  lemma CreateDialogKeepsValid(st: State, ip: Address, user: Name)
    requires Valid(st)
    ensures Valid(Dialogs.CreateDialog(st, ip, user).st)
  {
    var o := Dialogs.CreateDialog(st, ip, user);
    if o.st != st {
      ValidAfterNewDialog(st, o.st, o.reply.resp.data.id, GetNick(st, ip).value, user);
    }
  }

  /** A new empty log numbered from 1 up, listed by `a` and `b` whose
      records stay coherent, keeps a valid store valid. */
  lemma ValidAfterNewDialog(st: State, st': State, d: int, a: Name, b: Name)
    requires Valid(st) && d >= 1
    requires st'.logs == st.logs[d := []] && st'.requests == st.requests
    requires Frame(st.(logs := st'.logs), st', {a, b})
    requires a in st'.users ==> Coherent(st'.users[a])
    requires b in st'.users ==> Coherent(st'.users[b])
    ensures Valid(st')
  {
    ValidAfterTouch(st.(logs := st'.logs), st', a, b);
  }

  lemma SendMessageKeepsValid(st: State, ip: Address, msg: string, tm: int, dialog: Value)
    requires Valid(st)
    ensures Valid(Dialogs.SendMessage(st, ip, msg, tm, dialog).st)
  {
  }

  lemma RegisterKeepsValid(st: State, ip: Address, nick: Name, pswd: string, key: string,
                           isWord: char -> bool, admit: bool)
    requires Valid(st)
    ensures Valid(Accounts.Register(st, ip, nick, pswd, key, isWord, admit).st)
  {
  }

  lemma LoginKeepsValid(st: State, ip: Address, nick: Name, pswd: string, key: string,
                        admit: bool, keyParses: bool)
    requires Valid(st)
    ensures Valid(Accounts.Login(st, ip, nick, pswd, key, admit, keyParses).st)
  {
  }

  lemma LogoutKeepsValid(st: State, ip: Address)
    requires Valid(st)
    ensures Valid(Accounts.Logout(st, ip).st)
  {
  }

  lemma ChangeProfileSectionKeepsValid(st: State, ip: Address, sect: int, change: Value)
    requires Valid(st)
    ensures Valid(Accounts.ChangeProfileSection(st, ip, sect, change).st)
  {
  }

  lemma DeleteProfileKeepsValid(st: State, ip: Address)
    requires Valid(st)
    ensures Valid(Accounts.DeleteProfile(st, ip).st)
  {
    if GetNick(st, ip).Ok? && GetNick(st, ip).value in st.users {
      var nick := GetNick(st, ip).value;
      var s1 := CloseSession(Accounts.DropRequestsOf(st, nick), ip);
      FewerRequests(st.requests, s1.requests);
      var p2 := Accounts.UnlinkFriends(s1, st.users[nick].friends, nick);
      UnlinkKeepsValid(s1, st.users[nick].friends, nick);
      if p2.fault.None? {
        var p3 := Accounts.DropDialogs(p2.st, st.users[nick].dialogs, nick);
        DropDialogsKeepsValid(p2.st, st.users[nick].dialogs, nick);
        RetireKeepsValid(p3.st, nick);
      }
    }
  }

  /** The first loop of `delete_profile` keeps the store valid. */
  lemma UnlinkKeepsValid(st: State, fs: seq<Name>, nick: Name)
    requires Valid(st)
    ensures Valid(Accounts.UnlinkFriends(st, fs, nick).st)
  {
    Accounts.UnlinkFriendsUnlinks(st, fs, nick);
  }

  /** The second loop of `delete_profile` keeps the store valid. */
  lemma DropDialogsKeepsValid(st: State, ds: seq<int>, nick: Name)
    requires Valid(st) && nick in st.users
    ensures Valid(Accounts.DropDialogs(st, ds, nick).st)
  {
  }

  /** Removing a user's rows and unblocking it keeps the store valid. */
  lemma RetireKeepsValid(st: State, nick: Name)
    requires Valid(st)
    ensures Valid(Accounts.Retire(st, nick))
  {
  }

  /** On a valid store `profile_info` never faults: every user has a
      profile row. */
  lemma ProfileInfoNeverFaults(st: State, ip: Address, user: Name)
    requires Valid(st)
    ensures Accounts.ProfileInfo(st, ip, user).reply != Raised(StoreFault)
    ensures Accounts.ProfileInfo(st, ip, user).reply.Sent? <==>
      GetNick(st, ip).Ok? && user in st.users && !IsBlacklisted(st, GetNick(st, ip).value, user)
  {
  }
}

=== FILE: lists.dfy ===
/** The list operations the processor performs on SQL text arrays. */
module Lists {

  /** No element occurs twice in `s`. */
  predicate NoDup<T(==)>(s: seq<T>) {
    forall i, j :: 0 <= i < j < |s| ==> s[i] != s[j]
  }

  /** The elements of a list, forgetting order and repetition. */
  function Members<T>(s: seq<T>): set<T> {
    set x | x in s
  }

  /** A set is empty or has a member (extensionality, stated so that picking
      a member of a non-empty set never depends on the solver's luck). */
  lemma EmptyOrMember<T>(s: set<T>)
    ensures s == {} || exists x :: x in s
  {
    if !exists x :: x in s {
      assert s == {};
    }
  }

  /** Some member of a non-empty set. */
  lemma Member<T>(s: set<T>) returns (x: T)
    requires s != {}
    ensures x in s
  {
    EmptyOrMember(s);
    x :| x in s;
  }

  /** The head and tail of a concatenation whose first part is not empty. */
  lemma ConcatTail<T>(a: seq<T>, b: seq<T>)
    requires a != []
    ensures (a + b)[0] == a[0] && (a + b)[1..] == a[1..] + b
  {
  }

  /** `_add_to`'s list step: append `x` unless it is already present. */
  function Added<T(==)>(s: seq<T>, x: T): (r: seq<T>)
    ensures x in r
    ensures forall y :: y in r ==> y in s || y == x
    ensures forall y :: y in s ==> y in r
    ensures x in s ==> r == s
    ensures x !in s ==> r == s + [x]
    ensures NoDup(s) ==> NoDup(r)
  {
    if x in s then s else s + [x]
  }

  /** `_remove_from`'s list step: Python's `list.remove` with the `ValueError`
      swallowed, so it drops the FIRST occurrence of `x` and nothing else. */
  function Removed<T(==)>(s: seq<T>, x: T): (r: seq<T>)
    ensures x !in s ==> r == s
    ensures x in s ==> |r| == |s| - 1
    ensures forall y :: y in r ==> y in s
    ensures forall y :: y in s && y != x ==> y in r
    ensures NoDup(s) ==> NoDup(r) && x !in r
  {
    if s == [] then []
    else if s[0] == x then
      assert s == [s[0]] + s[1..];
      s[1..]
    else
      var t := Removed(s[1..], x);
      assert s == [s[0]] + s[1..];
      assert NoDup(s) ==> s[0] !in s[1..];
      [s[0]] + t
  }

  /** `Removed` cuts out exactly the first occurrence of `x` and keeps the
      rest of the list in order. */
  lemma {:induction false} RemovedFirst<T>(s: seq<T>, x: T, i: nat)
    requires i < |s| && s[i] == x && x !in s[..i]
    ensures Removed(s, x) == s[..i] + s[i + 1..]
    decreases i
  {
    assert s == [s[0]] + s[1..];
    if i > 0 {
      assert s[0] in s[..i];
      assert s[1..][..i - 1] == s[1..i];
      assert forall y :: y in s[1..i] ==> y in s[..i];
      RemovedFirst(s[1..], x, i - 1);
      assert s[1..][i..] == s[i + 1..];
      assert [s[0]] + (s[1..i] + s[i + 1..]) == s[..i] + s[i + 1..];
    }
  }

  /** The elements of `s` satisfying `p`, in their original order. */
  function Filter<T>(s: seq<T>, p: T -> bool): (r: seq<T>)
    ensures |r| <= |s|
    ensures forall y :: y in r ==> y in s && p(y)
    ensures forall y :: y in s && p(y) ==> y in r
    ensures NoDup(s) ==> NoDup(r)
  {
    if s == [] then []
    else
      var t := Filter(s[1..], p);
      assert s == [s[0]] + s[1..];
      assert NoDup(s) ==> s[0] !in s[1..];
      (if p(s[0]) then [s[0]] else []) + t
  }

  /** `Filter` keeps every passing element as often as it occurs in `s`,
      and no other. */
  lemma {:induction false} FilterCount<T>(s: seq<T>, p: T -> bool, y: T)
    ensures multiset(Filter(s, p))[y] == if p(y) then multiset(s)[y] else 0
    decreases |s|
  {
    if s != [] {
      FilterCount(s[1..], p, y);
      assert s == [s[0]] + s[1..];
      assert multiset(s) == multiset([s[0]]) + multiset(s[1..]);
      var t := Filter(s[1..], p);
      assert multiset(Filter(s, p)) == multiset(if p(s[0]) then [s[0]] else []) + multiset(t);
    }
  }

  /** `Filter` keeps the original order: filtering a concatenation is the
      concatenation of the filtered parts. */
  lemma {:induction false} FilterAppend<T>(s: seq<T>, t: seq<T>, p: T -> bool)
    ensures Filter(s + t, p) == Filter(s, p) + Filter(t, p)
    decreases |s|
  {
    if s == [] {
      assert s + t == t;
    } else {
      FilterAppend(s[1..], t, p);
      var h := if p(s[0]) then [s[0]] else [];
      var st := s + t;
      assert st[0] == s[0] && st[1..] == s[1..] + t;
      calc {
        Filter(st, p);
        h + Filter(st[1..], p);
        h + Filter(s[1..] + t, p);
        h + (Filter(s[1..], p) + Filter(t, p));
        (h + Filter(s[1..], p)) + Filter(t, p);
        Filter(s, p) + Filter(t, p);
      }
    }
  }

  /** A one-element list keeps its element exactly when it passes. */
  lemma FilterSingle<T>(x: T, p: T -> bool)
    ensures Filter([x], p) == if p(x) then [x] else []
  {
    assert [x][1..] == [];
  }

  /** SQL `x != ANY(arr)`: SOME element of the array differs from `x`. */
  predicate AnyDiffers<T(==)>(s: seq<T>, x: T) {
    exists i :: 0 <= i < |s| && s[i] != x
  }

  /** The `x != ANY(arr) OR arr = '{}'` test fails exactly when the array is
      non-empty and holds nothing but `x`; it is not `x` being absent. */
  lemma AnyDiffersOrEmpty<T>(s: seq<T>, x: T)
    ensures (AnyDiffers(s, x) || s == []) <==> !(|s| > 0 && forall i :: 0 <= i < |s| ==> s[i] == x)
  {
  }

  /** A two-element array holding `x` and another value passes the test even
      though `x` is in it. */
  lemma AnyDiffersDespiteMember<T>(x: T, y: T)
    requires x != y
    ensures x in [x, y] && AnyDiffers([x, y], x)
  {
    assert [x, y][1] != x;
  }
}

=== FILE: nick.dfy ===
/** The user-name validator: `re.fullmatch('(?![ ]+)[\w ]{2,15}', nick)`.
    Python's `\w` (Unicode word characters) is left abstract as `isWord`. */
module Nick {

  /** One character of the class `[\w ]`. */
  predicate InClass(c: char, isWord: char -> bool) {
    isWord(c) || c == ' '
  }

  /** The negative lookahead `(?![ ]+)` at position 0: it fails exactly when
      the name starts with at least one space. */
  predicate LookaheadPasses(nick: string) {
    !(|nick| > 0 && nick[0] == ' ')
  }

  /** `[\w ]{2,15}` consuming the whole name. */
  predicate ClassRunMatches(nick: string, isWord: char -> bool) {
    2 <= |nick| <= 15 && forall i :: 0 <= i < |nick| ==> InClass(nick[i], isWord)
  }

  /** `_valid_nick`: a full match of the pattern. An accepted name is never
      blank, has 2 to 15 characters, and starts with a non-space. */
  predicate ValidNick(nick: string, isWord: char -> bool)
    ensures ValidNick(nick, isWord) ==> 2 <= |nick| <= 15 && nick[0] != ' '
    ensures ValidNick(nick, isWord) ==> exists i :: 0 <= i < |nick| && nick[i] != ' '
  {
    LookaheadPasses(nick) && ClassRunMatches(nick, isWord)
  }

  /** The pattern is stricter than "not all spaces": ANY leading space is
      refused, even when word characters follow. */
  lemma LeadingSpaceRejected(nick: string, isWord: char -> bool)
    requires |nick| > 0 && nick[0] == ' '
    ensures !ValidNick(nick, isWord)
  {
  }

  /** Trailing and inner spaces are allowed once the first character is not one. */
  lemma InnerSpacesAccepted(nick: string, isWord: char -> bool)
    requires 2 <= |nick| <= 15 && nick[0] != ' '
    requires forall i :: 0 <= i < |nick| ==> isWord(nick[i]) || nick[i] == ' '
    ensures ValidNick(nick, isWord)
  {
  }

  /** A name outside 2..15 characters is refused whatever its characters. */
  lemma LengthOutOfRangeRejected(nick: string, isWord: char -> bool)
    requires |nick| < 2 || |nick| > 15
    ensures !ValidNick(nick, isWord)
  {
  }

  /** A character outside `[\w ]` anywhere in the name makes it invalid. */
  lemma ForeignCharRejected(nick: string, isWord: char -> bool, i: int)
    requires 0 <= i < |nick| && !isWord(nick[i]) && nick[i] != ' '
    ensures !ValidNick(nick, isWord)
  {
  }
}

=== FILE: protocol.dfy ===
/** What a request handler hands back: the store after the request and
    either a packed response or the exception it raised. */
module Protocol {
  import opened Store

  /** `ServerCodes`, the response kinds. */
  datatype ServerCode =
    | LoginError | RegisterError | LoginSucc | RegisterSucc | SearchList
    | FriendsGroupResponse | MessageHistory | MessageReceived | NewMessage
    | ChangeProfileSectionSucc | FriendsGroupUpdate | AddToBlacklistSucc
    | DeleteFromFriendsSucc | SendRequestSucc | NewAddRequest | AddRequestConfirm
    | DeleteProfileSucc | LogoutSucc | CreateDialogSucc | ProfileInfo
    | RemoveFromBlacklistSucc | TakeRequestBackSucc | ConfirmAddRequestSucc
    | AddToFavoritesSucc | AddRequestDecline | SearchMsgResult
    | RemoveFromFavoritesSucc | AddRequests | DeclineAddRequestSucc | SetImageSucc

  /** The data packed after the code (the request id is left out). */
  datatype Payload =
    | Nothing
    | Listing(entries: map<Name, bool>)
    | Groups(favorites: seq<(Name, bool)>, online: seq<(Name, bool)>,
             offline: seq<(Name, bool)>, blocked: seq<(Name, bool)>)
    | Messages(rows: seq<Row>)
    | DialogNumber(id: int)
    | Info(profile: Profile)
    | Pending(incoming: seq<(Name, string, bool)>, outgoing: seq<(Name, string, bool)>)

  datatype Response = Response(code: ServerCode, data: Payload)

  datatype Reply = Sent(resp: Response) | Raised(err: Error)

  /** The store after the request, whatever the reply. The source commits
      each helper's write as it goes, so a request that raises part-way can
      leave its earlier writes behind. */
  datatype Outcome = Outcome(st: State, reply: Reply)

  function Done(st: State, code: ServerCode, data: Payload): Outcome {
    Outcome(st, Sent(Response(code, data)))
  }
}

=== FILE: queries.dfy ===
/** The read-only handlers: `search_list`, `friends_group` and
    `add_requests`. None of them writes to the store. */
module Queries {
  import opened Wrappers
  import opened Lists
  import opened Store
  import opened Protocol

  /** The `WHERE` clause of `search_list` for the row of `n`, with the
      caller's incoming and outgoing request partners struck out afterwards.
      `x != ANY(arr) OR arr = '{}'` is kept as written: it holds when some
      element differs from `x`, not when `x` is absent. */
  predicate Listed(st: State, nick: Name, n: Name)
    requires n in st.users
  {
    && n != nick
    && (AnyDiffers(st.users[n].blacklist, nick) || st.users[n].blacklist == [])
    && (AnyDiffers(st.users[n].friends, nick) || st.users[n].friends == [])
    && !HasRequest(st, n, nick)
    && !HasRequest(st, nick, n)
  }

  /** A non-empty array holding only `x`. */
  predicate OnlyHolds(s: seq<Name>, x: Name) {
    |s| > 0 && forall i :: 0 <= i < |s| ==> s[i] == x
  }

  /** `search_list`: every other user except request partners and those
      whose blacklist or friends array is made of the caller alone, each with
      whether they hold a session. */
  function SearchList(st: State, ip: Address): (o: Outcome)
    ensures o.st == st
    ensures o.reply.Raised? <==> GetNick(st, ip).Err?
    ensures o.reply.Raised? ==> o.reply.err == BadRequest
    ensures o.reply.Sent? ==>
      var nick := GetNick(st, ip).value;
      && o.reply.resp.code == ServerCode.SearchList
      && o.reply.resp.data.Listing?
      && (forall n :: n in o.reply.resp.data.entries <==>
            && n in st.users && n != nick
            && !OnlyHolds(st.users[n].blacklist, nick)
            && !OnlyHolds(st.users[n].friends, nick)
            && !HasRequest(st, n, nick) && !HasRequest(st, nick, n))
      && (forall n :: n in o.reply.resp.data.entries ==>
            (o.reply.resp.data.entries[n] <==> exists s :: s in st.sessions && s.name == n))
  {
    match GetNick(st, ip)
    case Err(e) => Outcome(st, Raised(e))
    case Ok(nick) =>
      var on := Online(st);
      var entries := map n | n in st.users && Listed(st, nick, n) :: n in on;
      forall n | n in st.users
        ensures Listed(st, nick, n) <==>
          && n != nick
          && !OnlyHolds(st.users[n].blacklist, nick)
          && !OnlyHolds(st.users[n].friends, nick)
          && !HasRequest(st, n, nick) && !HasRequest(st, nick, n)
      {
        AnyDiffersOrEmpty(st.users[n].blacklist, nick);
        AnyDiffersOrEmpty(st.users[n].friends, nick);
      }
      Done(st, ServerCode.SearchList, Listing(entries))
  }

  /** The friends held in sessions, in list order, each tagged `true`. */
  function Present(names: seq<Name>, on: set<Name>): seq<(Name, bool)> {
    if names == [] then []
    else (if names[0] in on then [(names[0], true)] else []) + Present(names[1..], on)
  }

  /** The friends not held in sessions, in list order, each tagged `false`. */
  function Absent(names: seq<Name>, on: set<Name>): seq<(Name, bool)> {
    if names == [] then []
    else (if names[0] in on then [] else [(names[0], false)]) + Absent(names[1..], on)
  }

  /** The two groups hold exactly the names present and absent, with their
      tags, and together as many entries as there are names. */
  lemma {:induction false} GroupsPartition(names: seq<Name>, on: set<Name>)
    ensures |Present(names, on)| + |Absent(names, on)| == |names|
    ensures forall p :: p in Present(names, on) <==> p.0 in names && p.0 in on && p.1
    ensures forall p :: p in Absent(names, on) <==> p.0 in names && p.0 !in on && !p.1
    decreases |names|
  {
    if names != [] {
      GroupsPartition(names[1..], on);
      assert forall y :: y in names <==> y == names[0] || y in names[1..];
    }
  }

  /** The loop of `friends_group`: the friends held in sessions and the
      others, each group in list order and tagged with its presence. */
  function SplitByPresence(names: seq<Name>, on: set<Name>): (r: (seq<(Name, bool)>, seq<(Name, bool)>))
    ensures |r.0| + |r.1| == |names|
    ensures forall p :: p in r.0 <==> p.0 in names && p.0 in on && p.1
    ensures forall p :: p in r.1 <==> p.0 in names && p.0 !in on && !p.1
  {
    GroupsPartition(names, on);
    (Present(names, on), Absent(names, on))
  }

  /** The loop of `friends_group` appends in array order: splitting two
      stretches of the array gives the first stretch's groups followed by
      the second's. */
  lemma SplitInOrder(a: seq<Name>, b: seq<Name>, on: set<Name>)
    ensures SplitByPresence(a + b, on).0 == SplitByPresence(a, on).0 + SplitByPresence(b, on).0
    ensures SplitByPresence(a + b, on).1 == SplitByPresence(a, on).1 + SplitByPresence(b, on).1
  {
    PresentAppend(a, b, on);
    AbsentAppend(a, b, on);
  }

  lemma {:induction false} PresentAppend(a: seq<Name>, b: seq<Name>, on: set<Name>)
    ensures Present(a + b, on) == Present(a, on) + Present(b, on)
    decreases |a|
  {
    if a == [] {
      assert a + b == b;
    } else {
      PresentAppend(a[1..], b, on);
      ConcatTail(a, b);
      var h := if a[0] in on then [(a[0], true)] else [];
      assert Present(a + b, on) == h + Present(a[1..] + b, on);
      assert h + (Present(a[1..], on) + Present(b, on)) == (h + Present(a[1..], on)) + Present(b, on);
    }
  }

  lemma {:induction false} AbsentAppend(a: seq<Name>, b: seq<Name>, on: set<Name>)
    ensures Absent(a + b, on) == Absent(a, on) + Absent(b, on)
    decreases |a|
  {
    if a == [] {
      assert a + b == b;
    } else {
      AbsentAppend(a[1..], b, on);
      ConcatTail(a, b);
      var h := if a[0] in on then [] else [(a[0], false)];
      assert Absent(a + b, on) == h + Absent(a[1..] + b, on);
      assert h + (Absent(a[1..], on) + Absent(b, on)) == (h + Absent(a[1..], on)) + Absent(b, on);
    }
  }

  /** A single name goes to exactly one group. */
  lemma SplitSingle(n: Name, on: set<Name>)
    ensures SplitByPresence([n], on) == if n in on then ([(n, true)], []) else ([], [(n, false)])
  {
    assert [n][0] == n && [n][1..] == [];
    assert Present([], on) == [] && Absent([], on) == [];
    var r := SplitByPresence([n], on);
    assert r == (Present([n], on), Absent([n], on));
    if n in on {
      assert Present([n], on) == [(n, true)] + [];
      assert r.0 == [(n, true)] && r.1 == [];
    } else {
      assert Absent([n], on) == [(n, false)] + [];
      assert r.0 == [] && r.1 == [(n, false)];
    }
  }

  /** Each name with whether it holds a session. */
  function Tag(names: seq<Name>, on: set<Name>): (r: seq<(Name, bool)>)
    ensures |r| == |names|
    ensures forall i :: 0 <= i < |names| ==> r[i].0 == names[i] && (r[i].1 <==> names[i] in on)
  {
    seq(|names|, i requires 0 <= i < |names| => (names[i], names[i] in on))
  }

  /** `friends_group`: favorites, online friends, offline friends and the
      blacklist. A caller without a `users` row makes the unpacking of
      `fetchone()` fail. */
  function FriendsGroup(st: State, ip: Address): (o: Outcome)
    ensures o.st == st
    ensures GetNick(st, ip).Err? ==> o.reply == Raised(BadRequest)
    ensures GetNick(st, ip).Ok? && GetNick(st, ip).value !in st.users ==> o.reply == Raised(StoreFault)
    ensures o.reply.Sent? <==> GetNick(st, ip).Ok? && GetNick(st, ip).value in st.users
    ensures o.reply.Sent? ==>
      var u := st.users[GetNick(st, ip).value];
      var g := o.reply.resp.data;
      && o.reply.resp.code == FriendsGroupResponse
      && g.Groups?
      && |g.online| + |g.offline| == |u.friends|
      && g.online == SplitByPresence(u.friends, Online(st)).0
      && g.offline == SplitByPresence(u.friends, Online(st)).1
      && (forall n :: (n, true) in g.online <==> n in u.friends && n in Online(st))
      && (forall n :: (n, false) in g.offline <==> n in u.friends && n !in Online(st))
      && (forall p :: p in g.online ==> p.1)
      && (forall p :: p in g.offline ==> !p.1)
      && |g.favorites| == |u.favorites| && |g.blocked| == |u.blacklist|
      && (forall i :: 0 <= i < |u.favorites| ==>
            g.favorites[i].0 == u.favorites[i] && (g.favorites[i].1 <==> u.favorites[i] in Online(st)))
      && (forall i :: 0 <= i < |u.blacklist| ==>
            g.blocked[i].0 == u.blacklist[i] && (g.blocked[i].1 <==> u.blacklist[i] in Online(st)))
  {
    match GetNick(st, ip)
    case Err(e) => Outcome(st, Raised(e))
    case Ok(nick) =>
      if nick !in st.users then Outcome(st, Raised(StoreFault))
      else
        var u := st.users[nick];
        var on := Online(st);
        var split := SplitByPresence(u.friends, on);
        Done(st, FriendsGroupResponse, Groups(Tag(u.favorites, on), split.0, split.1, Tag(u.blacklist, on)))
  }

  /** The requests addressed to `nick`, as (sender, message, sender online). */
  function IncomingOf(reqs: seq<AddRequest>, nick: Name, on: set<Name>): (r: seq<(Name, string, bool)>)
    ensures |r| <= |reqs|
    ensures forall e :: e in r <==> AddRequest(e.0, nick, e.1) in reqs && (e.2 <==> e.0 in on)
    ensures NoDup(reqs) ==> NoDup(r)
  {
    if reqs == [] then []
    else
      var rest := IncomingOf(reqs[1..], nick, on);
      assert forall q :: q in reqs <==> q == reqs[0] || q in reqs[1..];
      assert NoDup(reqs) ==> reqs[0] !in reqs[1..] && NoDup(reqs[1..]);
      if reqs[0].to == nick then [(reqs[0].from, reqs[0].msg, reqs[0].from in on)] + rest
      else rest
  }

  /** `add_requests` gives one incoming entry per request row: an entry
      occurs as often as its row does. */
  lemma {:induction false} IncomingCount(reqs: seq<AddRequest>, nick: Name, on: set<Name>, e: (Name, string, bool))
    ensures multiset(IncomingOf(reqs, nick, on))[e] ==
      if e.2 <==> e.0 in on then multiset(reqs)[AddRequest(e.0, nick, e.1)] else 0
    decreases |reqs|
  {
    if reqs != [] {
      IncomingCount(reqs[1..], nick, on, e);
      assert reqs == [reqs[0]] + reqs[1..];
      assert multiset(reqs) == multiset{reqs[0]} + multiset(reqs[1..]);
      var rest := IncomingOf(reqs[1..], nick, on);
      if reqs[0].to == nick {
        assert IncomingOf(reqs, nick, on) == [(reqs[0].from, reqs[0].msg, reqs[0].from in on)] + rest;
        assert multiset(IncomingOf(reqs, nick, on)) == multiset{(reqs[0].from, reqs[0].msg, reqs[0].from in on)} + multiset(rest);
      } else {
        assert IncomingOf(reqs, nick, on) == rest;
      }
    }
  }

  /** The requests sent by `nick`, as (addressee, message, addressee online). */
  function OutgoingOf(reqs: seq<AddRequest>, nick: Name, on: set<Name>): (r: seq<(Name, string, bool)>)
    ensures |r| <= |reqs|
    ensures forall e :: e in r <==> AddRequest(nick, e.0, e.1) in reqs && (e.2 <==> e.0 in on)
    ensures NoDup(reqs) ==> NoDup(r)
  {
    if reqs == [] then []
    else
      var rest := OutgoingOf(reqs[1..], nick, on);
      assert forall q :: q in reqs <==> q == reqs[0] || q in reqs[1..];
      assert NoDup(reqs) ==> reqs[0] !in reqs[1..] && NoDup(reqs[1..]);
      if reqs[0].from == nick then [(reqs[0].to, reqs[0].msg, reqs[0].to in on)] + rest
      else rest
  }

  /** `add_requests` gives one outgoing entry per request row: an entry
      occurs as often as its row does. */
  lemma {:induction false} OutgoingCount(reqs: seq<AddRequest>, nick: Name, on: set<Name>, e: (Name, string, bool))
    ensures multiset(OutgoingOf(reqs, nick, on))[e] ==
      if e.2 <==> e.0 in on then multiset(reqs)[AddRequest(nick, e.0, e.1)] else 0
    decreases |reqs|
  {
    if reqs != [] {
      OutgoingCount(reqs[1..], nick, on, e);
      assert reqs == [reqs[0]] + reqs[1..];
      assert multiset(reqs) == multiset{reqs[0]} + multiset(reqs[1..]);
      var rest := OutgoingOf(reqs[1..], nick, on);
      if reqs[0].from == nick {
        assert OutgoingOf(reqs, nick, on) == [(reqs[0].to, reqs[0].msg, reqs[0].to in on)] + rest;
        assert multiset(OutgoingOf(reqs, nick, on)) == multiset{(reqs[0].to, reqs[0].msg, reqs[0].to in on)} + multiset(rest);
      } else {
        assert OutgoingOf(reqs, nick, on) == rest;
      }
    }
  }

  /** `add_requests`: the caller's pending requests in both directions. */
  function AddRequests(st: State, ip: Address): (o: Outcome)
    ensures o.st == st
    ensures o.reply.Raised? <==> GetNick(st, ip).Err?
    ensures o.reply.Raised? ==> o.reply.err == BadRequest
    ensures o.reply.Sent? ==>
      var nick := GetNick(st, ip).value;
      var p := o.reply.resp.data;
      && o.reply.resp.code == ServerCode.AddRequests
      && p.Pending?
      && (forall e :: e in p.incoming <==>
            AddRequest(e.0, nick, e.1) in st.requests && (e.2 <==> exists s :: s in st.sessions && s.name == e.0))
      && (forall e :: e in p.outgoing <==>
            AddRequest(nick, e.0, e.1) in st.requests && (e.2 <==> exists s :: s in st.sessions && s.name == e.0))
      && (forall e :: multiset(p.incoming)[e] ==
            if e.2 <==> e.0 in Online(st) then multiset(st.requests)[AddRequest(e.0, nick, e.1)] else 0)
      && (forall e :: multiset(p.outgoing)[e] ==
            if e.2 <==> e.0 in Online(st) then multiset(st.requests)[AddRequest(nick, e.0, e.1)] else 0)
      && (NoDup(st.requests) ==> NoDup(p.incoming) && NoDup(p.outgoing))
  {
    match GetNick(st, ip)
    case Err(e) => Outcome(st, Raised(e))
    case Ok(nick) =>
      var on := Online(st);
      assert forall e :: multiset(IncomingOf(st.requests, nick, on))[e] ==
                         if e.2 <==> e.0 in on then multiset(st.requests)[AddRequest(e.0, nick, e.1)] else 0 by {
        forall e
          ensures multiset(IncomingOf(st.requests, nick, on))[e] ==
                  if e.2 <==> e.0 in on then multiset(st.requests)[AddRequest(e.0, nick, e.1)] else 0
        {
          IncomingCount(st.requests, nick, on, e);
        }
      }
      assert forall e :: multiset(OutgoingOf(st.requests, nick, on))[e] ==
                         if e.2 <==> e.0 in on then multiset(st.requests)[AddRequest(nick, e.0, e.1)] else 0 by {
        forall e
          ensures multiset(OutgoingOf(st.requests, nick, on))[e] ==
                  if e.2 <==> e.0 in on then multiset(st.requests)[AddRequest(nick, e.0, e.1)] else 0
        {
          OutgoingCount(st.requests, nick, on, e);
        }
      }
      Done(st, ServerCode.AddRequests, Pending(IncomingOf(st.requests, nick, on), OutgoingOf(st.requests, nick, on)))
  }
}

=== FILE: scenarios.dfy ===
/** Properties that span more than one request, and the consequences of
    the processor's quirks kept as written: the one-sided blacklist, the
    `!= ANY` test of `search_list`, and a destroyed dialog whose id stays
    in the other participant's list. */
module Scenarios {
  import opened Wrappers
  import opened Lists
  import opened Store
  import opened Protocol
  import opened DialogLog
  import SocialGraph
  import Queries
  import Dialogs
  import Accounts
  import Nick

  /** A request followed by its confirmation makes the two users friends of
      each other and leaves no request between them. The confirmation cannot
      be refused: `send_request` already checked that the sender is not in
      the addressee's blacklist. */
  lemma RequestThenConfirm(st: State, ipA: Address, ipB: Address, bob: Name, msg: string)
    requires GetNick(st, ipA).Ok? && GetNick(st, ipA).value in st.users
    requires GetNick(st, ipB) == Ok(bob)
    requires SocialGraph.SendRequest(st, ipA, bob, msg).reply.Sent?
    ensures
      var alice := GetNick(st, ipA).value;
      var o1 := SocialGraph.SendRequest(st, ipA, bob, msg);
      var o2 := SocialGraph.ConfirmAddRequest(o1.st, ipB, alice);
      && HasRequest(o1.st, alice, bob)
      && o2.reply.Sent?
      && alice in o2.st.users[bob].friends && bob in o2.st.users[alice].friends
      && !HasRequest(o2.st, alice, bob) && !HasRequest(o2.st, bob, alice)
  {
    var alice := GetNick(st, ipA).value;
    var o1 := SocialGraph.SendRequest(st, ipA, bob, msg);
    assert AddRequest(alice, bob, msg) in o1.st.requests;
    assert GetNick(o1.st, ipB) == Ok(bob);
  }

  /** Asking twice for a dialog with the same user gives the same id and
      changes nothing the second time. */
  lemma CreateDialogTwice(st: State, ip: Address, user: Name)
    requires Dialogs.CreateDialog(st, ip, user).reply.Sent?
    ensures
      var o1 := Dialogs.CreateDialog(st, ip, user);
      Dialogs.CreateDialog(o1.st, ip, user) == o1
  {
    var o1 := Dialogs.CreateDialog(st, ip, user);
    var nick := GetNick(st, ip).value;
    var d := o1.reply.resp.data.id;
    assert GetNick(o1.st, ip) == GetNick(st, ip);
    var a, b := st.users[nick].dialogs, st.users[user].dialogs;
    if Dialogs.CommonDialog(a, b).None? {
      var a', b' := o1.st.users[nick].dialogs, o1.st.users[user].dialogs;
      var c := Dialogs.CommonDialog(a', b');
      assert d in a' && d in b';
      assert c.Some? by {
        var i :| 0 <= i < |a'| && a'[i] == d;
      }
    }
  }

  /** A dialog in which only `user` wrote is destroyed when `user` deletes
      it, but its id stays in the other participant's list: that user still
      passes the membership check, and reading the history then faults on
      the missing table. */
  lemma DestroyedDialogStaysListed(st: State, d: int, user: Name, ip: Address, count: nat)
    requires d in st.logs && user in st.users
    requires forall x :: x in st.logs[d] ==> x.sender == user
    requires GetNick(st, ip).Ok? && GetNick(st, ip).value != user
    requires GetNick(st, ip).value in st.users && d in st.users[GetNick(st, ip).value].dialogs
    ensures DeleteDialog(st, d, user).Ok?
    ensures
      var s := DeleteDialog(st, d, user).value;
      && d !in s.logs
      && d in s.users[GetNick(st, ip).value].dialogs
      && Dialogs.MessageHistory(s, ip, count, IntVal(d)).reply == Raised(StoreFault)
  {
    assert FirstOtherSender(st.logs[d], user).None?;
    var s := DeleteDialog(st, d, user).value;
    assert GetNick(s, ip) == GetNick(st, ip);
  }

  /** Once every dialog table is gone the allocator starts again from 1, so
      a user still listing a destroyed id 1 passes the membership check of
      the new dialog between two others and reads its log. */
  lemma FreedIdIsReissued(st: State, ip: Address, user: Name, stale: Name)
    requires st.logs == map[]
    requires Dialogs.CreateDialog(st, ip, user).reply.Sent?
    requires Dialogs.CommonDialog(st.users[GetNick(st, ip).value].dialogs, st.users[user].dialogs).None?
    requires stale in st.users && stale != user && stale != GetNick(st, ip).value
    requires 1 in st.users[stale].dialogs
    ensures
      var o := Dialogs.CreateDialog(st, ip, user);
      && o.reply.resp.data == DialogNumber(1)
      && InDialog(o.st, stale, IntVal(1)) == Ok(1)
      && 1 in o.st.logs
  {
    assert NextDialogId(st) == 1;
    var o := Dialogs.CreateDialog(st, ip, user);
    assert o.st.users[stale] == st.users[stale];
  }

  /** Deleting from one side a dialog the other side wrote in only marks the
      deleter's rows; when the other side deletes it afterwards, every row
      not theirs is marked, so the table is dropped. */
  lemma SoftThenHardDelete(st: State, d: int, alice: Name, bob: Name)
    requires d in st.logs && alice in st.users && bob in st.users && alice != bob
    requires forall x :: x in st.logs[d] ==> x.sender == alice || x.sender == bob
    requires exists x :: x in st.logs[d] && x.sender == bob
    requires |bob| > 0 && bob[0] != '~'
    ensures DeleteDialog(st, d, alice).Ok?
    ensures
      var s1 := DeleteDialog(st, d, alice).value;
      && d in s1.logs && s1.logs[d] == MarkDeleted(st.logs[d], alice)
      && DeleteDialog(s1, d, bob).Ok? && d !in DeleteDialog(s1, d, bob).value.logs
  {
    var rows := st.logs[d];
    assert FirstOtherSender(rows, alice) == Some(bob);
    var s1 := DeleteDialog(st, d, alice).value;
    MarkedRowsAbandoned(rows, alice, bob);
    var m := MarkDeleted(rows, alice);
    assert FirstOtherSender(m, bob) != Some([]) by {
      if FirstOtherSender(m, bob).Some? {
        var x :| x in m && x.sender == FirstOtherSender(m, bob).value;
        assert |x.sender| > 0;
      }
    }
  }

  /** After `alice` marked her rows, the first row of a two-party log that
      is not `bob`'s is one of hers, so it carries the deletion mark. */
  lemma MarkedRowsAbandoned(rows: seq<Row>, alice: Name, bob: Name)
    requires forall x :: x in rows ==> x.sender == alice || x.sender == bob
    requires bob != Tombstone(alice)
    ensures forall x :: x in MarkDeleted(rows, alice) ==> x.sender == bob || x.sender == Tombstone(alice)
    ensures Abandoned(MarkDeleted(rows, alice), bob)
  {
    var m := MarkDeleted(rows, alice);
    forall x | x in m
      ensures x.sender == bob || x.sender == Tombstone(alice)
    {
      var i :| 0 <= i < |m| && m[i] == x;
      assert rows[i] in rows;
    }
    match FirstOtherSender(m, bob)
    case None =>
    case Some(s) =>
      var x :| x in m && x.sender == s;
      assert s == Tombstone(alice);
  }

  /** `search_list` hides a user whose blacklist is exactly the caller, but
      lists one who blacklisted the caller and somebody else; likewise a
      user whose only friend is the caller is hidden and one with another
      friend besides is listed. */
  lemma SearchListAnyQuirk(st: State, ip: Address, n: Name, other: Name)
    requires GetNick(st, ip).Ok? && n in st.users && n != GetNick(st, ip).value
    requires other != GetNick(st, ip).value
    requires !HasRequest(st, n, GetNick(st, ip).value) && !HasRequest(st, GetNick(st, ip).value, n)
    ensures
      var nick := GetNick(st, ip).value;
      var e := Queries.SearchList(st, ip).reply.resp.data.entries;
      && (st.users[n].blacklist == [nick] ==> n !in e)
      && (st.users[n].friends == [nick] ==> n !in e)
      && (var blocks, friends := st.users[n].blacklist, st.users[n].friends;
          (blocks == [nick, other] || blocks == []) && (friends == [nick, other] || friends == []) ==> n in e)
  {
    var nick := GetNick(st, ip).value;
    assert !Queries.OnlyHolds([nick, other], nick) by {
      assert [nick, other][1] != nick;
    }
  }

  /** Blacklisting is one-sided: the blacklisted user keeps the caller in
      their own friends and favorites. */
  lemma BlacklistIsOneSided(st: State, ip: Address, user: Name)
    requires SocialGraph.AddToBlacklist(st, ip, user).reply.Sent?
    ensures
      var nick := GetNick(st, ip).value;
      var o := SocialGraph.AddToBlacklist(st, ip, user);
      && user in o.st.users[nick].blacklist
      && (nick in st.users[user].friends <==> nick in o.st.users[user].friends)
      && (nick in st.users[user].favorites <==> nick in o.st.users[user].favorites)
      && IsBlacklisted(o.st, user, nick)
      && (IsBlacklisted(o.st, nick, user) <==> IsBlacklisted(st, nick, user))
  {
    var nick := GetNick(st, ip).value;
    var o := SocialGraph.AddToBlacklist(st, ip, user);
    assert user in Members(o.st.users[nick].blacklist);
  }

  /** A message stamped no earlier than the rest of its dialog is what a
      history of one row returns right after it was sent. */
  lemma SendThenLatest(st: State, ip: Address, msg: string, tm: int, dialog: Value)
    requires Dialogs.SendMessage(st, ip, msg, tm, dialog).reply.Sent?
    requires forall x :: x in st.logs[dialog.i] ==> x.timestamp <= tm
    ensures
      var o := Dialogs.SendMessage(st, ip, msg, tm, dialog);
      Dialogs.MessageHistory(o.st, ip, 1, dialog).reply ==
        Sent(Response(ServerCode.MessageHistory, Messages([Row(msg, tm, GetNick(st, ip).value)])))
  {
    var o := Dialogs.SendMessage(st, ip, msg, tm, dialog);
    assert GetNick(o.st, ip) == GetNick(st, ip);
    LatestIsLastOfHistory(st.logs[dialog.i], Row(msg, tm, GetNick(st, ip).value));
  }

  /** A completed registration can be followed by a login with the same
      name and password from anywhere; it succeeds exactly when the store
      admits the new session row. */
  lemma RegisterThenLogin(st: State, ip: Address, nick: Name, pswd: string, key: string,
                          isWord: char -> bool, ip2: Address, key2: string, admit2: bool, keyParses2: bool)
    requires Accounts.Register(st, ip, nick, pswd, key, isWord, true).reply == Sent(Response(RegisterSucc, Nothing))
    ensures
      var o := Accounts.Register(st, ip, nick, pswd, key, isWord, true);
      var l := Accounts.Login(o.st, ip2, nick, pswd, key2, admit2, keyParses2);
      && (l.reply == Sent(Response(LoginSucc, Nothing)) <==> admit2)
      && (admit2 ==> GetNick(l.st, ip).Ok?)
  {
    var o := Accounts.Register(st, ip, nick, pswd, key, isWord, true);
    assert Nick.ValidNick(nick, isWord) && nick !in st.users && nick !in st.profiles;
    var l := Accounts.Login(o.st, ip2, nick, pswd, key2, admit2, keyParses2);
    if admit2 {
      assert Session(ip, nick, key) in l.st.sessions;
    }
  }
}

=== FILE: social_graph.dfy ===
/** The social-graph handlers of `Processor`: blacklist, unfriend, the
    add-request lifecycle, and favorites. Each resolves the caller from the
    session table first. */
module SocialGraph {
  import opened Wrappers
  import opened Lists
  import opened Store
  import opened Protocol

  /** `add_to_blacklist`: refuses an unknown target and oneself. Afterwards
      `user` is in the caller's blacklist and out of the caller's friends and
      favorites, and no request links the two; `user`'s own record is left
      as it was. */
  function AddToBlacklist(st: State, ip: Address, user: Name): (o: Outcome)
    ensures o.reply.Raised? ==> o == Outcome(st, Raised(BadRequest))
    ensures o.reply.Sent? <==>
      GetNick(st, ip).Ok? && user in st.users && GetNick(st, ip).value != user && GetNick(st, ip).value in st.users
    ensures o.reply.Sent? ==> o.reply.resp == Response(AddToBlacklistSucc, Nothing)
    ensures o.reply.Sent? ==> Blocked(st, o.st, GetNick(st, ip).value, user)
  {
    match GetNick(st, ip)
    case Err(e) => Outcome(st, Raised(e))
    case Ok(nick) =>
      // `nick !in st.users` is the first `_remove_from` raising
      if !UserExists(st, user) || nick == user || nick !in st.users then Outcome(st, Raised(BadRequest))
      else Done(Block(st, nick, user), AddToBlacklistSucc, Nothing)
  }

  /** `st'` is `st` after `nick` blocked `user`: only `nick`'s record and the
      requests between the two change; `user` is in `nick`'s blacklist and
      out of `nick`'s friends and favorites. */
  ghost predicate Blocked(st: State, st': State, nick: Name, user: Name) {
    && nick in st.users && user in st.users && nick != user
    && Frame(st, st', {nick})
    && st'.users[user] == st.users[user]
    && (forall q :: q in st'.requests <==> q in st.requests && !Links(q, nick, user))
    && (NoDup(st.requests) ==> NoDup(st'.requests))
    && var before := st.users[nick];
       var after := st'.users[nick];
       && after.password == before.password && after.dialogs == before.dialogs
       && Members(after.blacklist) == Members(before.blacklist) + {user}
       && Members(after.friends) <= Members(before.friends)
       && Members(before.friends) - {user} <= Members(after.friends)
       && Members(after.favorites) <= Members(before.favorites)
       && Members(before.favorites) - {user} <= Members(after.favorites)
       && (NoDup(before.friends) ==> Members(after.friends) == Members(before.friends) - {user})
       && (NoDup(before.favorites) ==> Members(after.favorites) == Members(before.favorites) - {user})
       && (Coherent(before) ==> Coherent(after))
  }

  /** The writes of `add_to_blacklist` once both rows are known to exist. */
  function Block(st: State, nick: Name, user: Name): (st': State)
    requires nick in st.users && user in st.users && nick != user
    ensures Blocked(st, st', nick, user)
  {
    var s1 := RemoveName(st, nick, user, Friends);
    var s2 := RemoveName(s1, nick, user, Favorites);
    var s3 := AddName(s2, nick, user, Blacklist);
    var s4 := RemoveAddRequest(RemoveAddRequest(s3, nick, user), user, nick);
    assert Names(s3.users[nick], Friends) == Names(s1.users[nick], Friends);
    assert Names(s3.users[nick], Favorites) == Names(s2.users[nick], Favorites);
    assert Names(s2.users[nick], Blacklist) == Names(st.users[nick], Blacklist);
    s4
  }

  /** `v` is `u` with `other` dropped from friends and favorites: nothing
      else goes, nothing comes, the other columns stay. */
  predicate Unlinked(u: User, v: User, other: Name) {
    && v.password == u.password && v.dialogs == u.dialogs && v.blacklist == u.blacklist
    && Members(v.friends) <= Members(u.friends)
    && Members(u.friends) - {other} <= Members(v.friends)
    && Members(v.favorites) <= Members(u.favorites)
    && Members(u.favorites) - {other} <= Members(v.favorites)
    && (NoDup(u.friends) ==> NoDup(v.friends))
    && (NoDup(u.favorites) ==> NoDup(v.favorites))
    && (Coherent(u) ==> Coherent(v))
  }

  /** A record is unlinked from itself. */
  lemma UnlinkedSelf(u: User, other: Name)
    ensures Unlinked(u, u, other)
  {
  }

  /** Dropping a name twice in a row is dropping it once. */
  lemma UnlinkedTwice(u: User, v: User, w: User, other: Name)
    requires Unlinked(u, v, other) && Unlinked(v, w, other)
    ensures Unlinked(u, w, other)
  {
  }

  /** `owner` drops `other` from its friends and its favorites, the pair of
      `_remove_from` calls `delete_from_friends` makes for each side. */
  function Unfriend(st: State, owner: Name, other: Name): (st': State)
    requires owner in st.users
    ensures OnlyUserChanged(st, st', owner)
    ensures Unlinked(st.users[owner], st'.users[owner], other)
    ensures NoDup(st.users[owner].friends) ==> other !in st'.users[owner].friends
    ensures NoDup(st.users[owner].favorites) ==> other !in st'.users[owner].favorites
  {
    var s1 := RemoveName(st, owner, other, Friends);
    var s2 := RemoveName(s1, owner, other, Favorites);
    assert Names(s2.users[owner], Friends) == Names(s1.users[owner], Friends);
    assert Names(s1.users[owner], Favorites) == Names(st.users[owner], Favorites);
    assert Names(s2.users[owner], Blacklist) == Names(st.users[owner], Blacklist);
    s2
  }

  /** `delete_from_friends`: the caller and `user` leave each other's friends
      and favorites; nothing else in either record changes. */
  function DeleteFromFriends(st: State, ip: Address, user: Name): (o: Outcome)
    ensures o.reply.Raised? ==> o == Outcome(st, Raised(BadRequest))
    ensures o.reply.Sent? <==> GetNick(st, ip).Ok? && user in st.users && GetNick(st, ip).value in st.users
    ensures o.reply.Sent? ==> o.reply.resp == Response(DeleteFromFriendsSucc, Nothing)
    ensures o.reply.Sent? ==>
      var nick := GetNick(st, ip).value;
      && Frame(st, o.st, {nick, user})
      && o.st.requests == st.requests
      && Unlinked(st.users[nick], o.st.users[nick], user)
      && Unlinked(st.users[user], o.st.users[user], nick)
      && (NoDup(st.users[nick].friends) ==> user !in o.st.users[nick].friends)
      && (NoDup(st.users[nick].favorites) ==> user !in o.st.users[nick].favorites)
      && (NoDup(st.users[user].friends) ==> nick !in o.st.users[user].friends)
      && (NoDup(st.users[user].favorites) ==> nick !in o.st.users[user].favorites)
  {
    match GetNick(st, ip)
    case Err(e) => Outcome(st, Raised(e))
    case Ok(nick) =>
      if !UserExists(st, user) || nick !in st.users then Outcome(st, Raised(BadRequest))
      else
        var s1 := Unfriend(st, nick, user);
        var s2 := Unfriend(s1, user, nick);
        if nick == user then
          UnlinkedTwice(st.users[nick], s1.users[nick], s2.users[nick], user);
          Done(s2, DeleteFromFriendsSucc, Nothing)
        else
          assert s2.users[nick] == s1.users[nick];
          assert s1.users[user] == st.users[user];
          Done(s2, DeleteFromFriendsSucc, Nothing)
  }

  /** `send_request`: refuses oneself, a target whose friends or blacklist
      already hold the caller, and a pair already linked by a request in
      either direction; otherwise adds exactly the row (caller, user, msg). */
  function SendRequest(st: State, ip: Address, user: Name, msg: string): (o: Outcome)
    ensures o.reply.Raised? ==> o == Outcome(st, Raised(BadRequest))
    ensures o.reply.Sent? <==>
      && GetNick(st, ip).Ok? && user in st.users
      && var nick := GetNick(st, ip).value;
         && nick != user
         && nick !in st.users[user].friends && nick !in st.users[user].blacklist
         && !HasRequest(st, nick, user) && !HasRequest(st, user, nick)
    ensures o.reply.Sent? ==>
      && o.reply.resp == Response(SendRequestSucc, Nothing)
      && o.st == st.(requests := st.requests + [AddRequest(GetNick(st, ip).value, user, msg)])
  {
    match GetNick(st, ip)
    case Err(e) => Outcome(st, Raised(e))
    case Ok(nick) =>
      if !UserExists(st, user) || nick == user then Outcome(st, Raised(BadRequest))
      else if nick in st.users[user].friends || nick in st.users[user].blacklist then Outcome(st, Raised(BadRequest))
      else if HasRequest(st, user, nick) || HasRequest(st, nick, user) then Outcome(st, Raised(BadRequest))
      else Done(st.(requests := st.requests + [AddRequest(nick, user, msg)]), SendRequestSucc, Nothing)
  }

  /** `confirm_add_request`: refuses when the caller has blacklisted `user`;
      otherwise the request from `user` goes and each side's friends gain
      the other, with the rest of both records left as it was. A pending
      request is not required. When the caller's own
      record is missing the last write raises, after the earlier ones. */
  function ConfirmAddRequest(st: State, ip: Address, user: Name): (o: Outcome)
    ensures o.reply.Raised? ==> o.reply.err == BadRequest
    ensures o.reply.Raised? && o.st != st ==>
      GetNick(st, ip).Ok? && GetNick(st, ip).value !in st.users && user in st.users
    ensures o.reply.Sent? <==>
      && GetNick(st, ip).Ok? && user in st.users
      && GetNick(st, ip).value in st.users
      && !IsBlacklisted(st, user, GetNick(st, ip).value)
    ensures o.reply.Sent? ==> o.reply.resp == Response(ConfirmAddRequestSucc, Nothing)
    ensures GetNick(st, ip).Ok? && user in st.users && !IsBlacklisted(st, user, GetNick(st, ip).value) ==>
      var nick := GetNick(st, ip).value;
      && o.st.users.Keys == st.users.Keys
      && o.st.profiles == st.profiles && o.st.sessions == st.sessions && o.st.logs == st.logs
      && (forall n :: n in st.users && n != nick && n != user ==> o.st.users[n] == st.users[n])
      && (forall q :: q in o.st.requests <==> q in st.requests && !(q.from == user && q.to == nick))
      && (NoDup(st.requests) ==> NoDup(o.st.requests))
      && o.st.users[user] == st.users[user].(friends := o.st.users[user].friends)
      && Members(o.st.users[user].friends) == Members(st.users[user].friends) + {nick}
      && (o.reply.Sent? ==>
            && o.st.users[nick] == st.users[nick].(friends := o.st.users[nick].friends)
            && Members(o.st.users[nick].friends) == Members(st.users[nick].friends) + {user})
      && (Coherent(st.users[user]) ==> Coherent(o.st.users[user]))
      && (nick in st.users && Coherent(st.users[nick]) ==> Coherent(o.st.users[nick]))
  {
    match GetNick(st, ip)
    case Err(e) => Outcome(st, Raised(e))
    case Ok(nick) =>
      if !UserExists(st, user) || IsBlacklisted(st, user, nick) then Outcome(st, Raised(BadRequest))
      else
        var s1 := RemoveAddRequest(st, user, nick);
        var s2 := AddName(s1, user, nick, Friends);
        match AddTo(s2, nick, user, Friends)
        case Err(e) => Outcome(s2, Raised(e))
        case Ok(s3) => Done(s3, ConfirmAddRequestSucc, Nothing)
  }

  /** `decline_add_request`: the request from `user` to the caller goes. */
  function DeclineAddRequest(st: State, ip: Address, user: Name): (o: Outcome)
    ensures o.reply.Raised? ==> o == Outcome(st, Raised(BadRequest))
    ensures o.reply.Sent? <==> GetNick(st, ip).Ok? && user in st.users
    ensures o.reply.Sent? ==>
      && o.reply.resp == Response(DeclineAddRequestSucc, Nothing)
      && o.st == st.(requests := o.st.requests)
      && (forall q :: q in o.st.requests <==> q in st.requests && !(q.from == user && q.to == GetNick(st, ip).value))
      && (NoDup(st.requests) ==> NoDup(o.st.requests))
  {
    match GetNick(st, ip)
    case Err(e) => Outcome(st, Raised(e))
    case Ok(nick) =>
      if !UserExists(st, user) then Outcome(st, Raised(BadRequest))
      else Done(RemoveAddRequest(st, user, nick), DeclineAddRequestSucc, Nothing)
  }

  /** `take_request_back`: the request from the caller to `user` goes. */
  function TakeRequestBack(st: State, ip: Address, user: Name): (o: Outcome)
    ensures o.reply.Raised? ==> o == Outcome(st, Raised(BadRequest))
    ensures o.reply.Sent? <==> GetNick(st, ip).Ok? && user in st.users
    ensures o.reply.Sent? ==>
      && o.reply.resp == Response(TakeRequestBackSucc, Nothing)
      && o.st == st.(requests := o.st.requests)
      && (forall q :: q in o.st.requests <==> q in st.requests && !(q.from == GetNick(st, ip).value && q.to == user))
      && (NoDup(st.requests) ==> NoDup(o.st.requests))
  {
    match GetNick(st, ip)
    case Err(e) => Outcome(st, Raised(e))
    case Ok(nick) =>
      if !UserExists(st, user) then Outcome(st, Raised(BadRequest))
      else Done(RemoveAddRequest(st, nick, user), TakeRequestBackSucc, Nothing)
  }

  /** Only the `rel` list of `nick`'s record may differ. */
  predicate OnlyListChanged(st: State, st': State, nick: Name, rel: Rel)
    requires nick in st.users
  {
    && Frame(st, st', {nick})
    && st'.requests == st.requests
    && OnlyRelChanged(st.users[nick], st'.users[nick], rel)
  }

  /** `add_to_favorites`: only a current friend of the caller can become a
      favorite. */
  function AddToFavorites(st: State, ip: Address, user: Name): (o: Outcome)
    ensures o.reply.Raised? ==> o == Outcome(st, Raised(BadRequest))
    ensures o.reply.Sent? <==>
      && GetNick(st, ip).Ok? && user in st.users
      && GetNick(st, ip).value in st.users
      && user in st.users[GetNick(st, ip).value].friends
    ensures o.reply.Sent? ==>
      var nick := GetNick(st, ip).value;
      && o.reply.resp == Response(AddToFavoritesSucc, Nothing)
      && OnlyListChanged(st, o.st, nick, Favorites)
      && Members(o.st.users[nick].favorites) == Members(st.users[nick].favorites) + {user}
      && (Coherent(st.users[nick]) ==> Coherent(o.st.users[nick]))
  {
    match GetNick(st, ip)
    case Err(e) => Outcome(st, Raised(e))
    case Ok(nick) =>
      if !UserExists(st, user) then Outcome(st, Raised(BadRequest))
      else if nick !in st.users || user !in st.users[nick].friends then Outcome(st, Raised(BadRequest))
      else Done(AddName(st, nick, user, Favorites), AddToFavoritesSucc, Nothing)
  }

  /** `remove_from_favorites`. */
  function RemoveFromFavorites(st: State, ip: Address, user: Name): (o: Outcome)
    ensures o.reply.Raised? ==> o == Outcome(st, Raised(BadRequest))
    ensures o.reply.Sent? <==> GetNick(st, ip).Ok? && user in st.users && GetNick(st, ip).value in st.users
    ensures o.reply.Sent? ==>
      var nick := GetNick(st, ip).value;
      && o.reply.resp == Response(RemoveFromFavoritesSucc, Nothing)
      && OnlyListChanged(st, o.st, nick, Favorites)
      && (NoDup(st.users[nick].favorites) ==>
            Members(o.st.users[nick].favorites) == Members(st.users[nick].favorites) - {user})
      && (Coherent(st.users[nick]) ==> Coherent(o.st.users[nick]))
  {
    match GetNick(st, ip)
    case Err(e) => Outcome(st, Raised(e))
    case Ok(nick) =>
      if !UserExists(st, user) then Outcome(st, Raised(BadRequest))
      else match RemoveFrom(st, nick, user, Favorites)
        case Err(e) => Outcome(st, Raised(e))
        case Ok(s1) => Done(s1, RemoveFromFavoritesSucc, Nothing)
  }

  /** `remove_from_blacklist`. */
  function RemoveFromBlacklist(st: State, ip: Address, user: Name): (o: Outcome)
    ensures o.reply.Raised? ==> o == Outcome(st, Raised(BadRequest))
    ensures o.reply.Sent? <==> GetNick(st, ip).Ok? && user in st.users && GetNick(st, ip).value in st.users
    ensures o.reply.Sent? ==>
      var nick := GetNick(st, ip).value;
      && o.reply.resp == Response(RemoveFromBlacklistSucc, Nothing)
      && OnlyListChanged(st, o.st, nick, Blacklist)
      && (NoDup(st.users[nick].blacklist) ==>
            Members(o.st.users[nick].blacklist) == Members(st.users[nick].blacklist) - {user})
      && (Coherent(st.users[nick]) ==> Coherent(o.st.users[nick]))
  {
    match GetNick(st, ip)
    case Err(e) => Outcome(st, Raised(e))
    case Ok(nick) =>
      if !UserExists(st, user) then Outcome(st, Raised(BadRequest))
      else match RemoveFrom(st, nick, user, Blacklist)
        case Err(e) => Outcome(st, Raised(e))
        case Ok(s1) => Done(s1, RemoveFromBlacklistSucc, Nothing)
  }
}

=== FILE: store.dfy ===
/** The relational store behind the processor, as one immutable value, and
    the store helpers of `Processor` (`_add_to`, `_remove_from`,
    `_is_blacklisted`, `_remove_add_request`, `_get_collocutor`,
    `_user_in_dialog`, `_user_exists`, `_get_nick`, the session helpers). */
module Store {
  import opened Wrappers
  import opened Lists
  import Text

  type Name = string
  type Address = string

  /** A JSON value of a request, where the source tests `isinstance(_, int)`. */
  datatype Value = IntVal(i: int) | TextVal(s: string) | OtherVal

  /** `BadRequest` is the processor's own exception; `StoreFault` stands for
      every other exception a request can end in (a `TypeError` on a missing
      row, a `ProgrammingError` on a dropped dialog table, an `IndexError`). */
  datatype Error = BadRequest | StoreFault

  /** A row of `users`: password hash and the four text-array columns. */
  datatype User = User(password: string, friends: seq<Name>, favorites: seq<Name>,
                       blacklist: seq<Name>, dialogs: seq<int>)

  /** A row of `profiles` without the image column. */
  datatype Profile = Profile(status: Value, email: Value, birthday: int, about: Value)

  /** A row of `requests`: a pending add-request. */
  datatype AddRequest = AddRequest(from: Name, to: Name, msg: string)

  /** A row of `sessions`. */
  datatype Session = Session(address: Address, name: Name, key: string)

  /** A row of a dialog table `d<n>`. */
  datatype Row = Row(content: string, timestamp: int, sender: Name)

  /** The whole store. `logs` holds one entry per existing dialog table. */
  datatype State = State(users: map<Name, User>, profiles: map<Name, Profile>,
                         requests: seq<AddRequest>, sessions: seq<Session>,
                         logs: map<int, seq<Row>>)

  /** The shape every `users` row keeps: no array holds a value twice, and
      every favorite is a friend. */
  predicate Coherent(u: User) {
    && NoDup(u.friends) && NoDup(u.favorites) && NoDup(u.blacklist) && NoDup(u.dialogs)
    && Members(u.favorites) <= Members(u.friends)
  }

  /** The three name-valued relation columns. */
  datatype Rel = Friends | Favorites | Blacklist

  function Names(u: User, rel: Rel): seq<Name> {
    match rel
    case Friends => u.friends
    case Favorites => u.favorites
    case Blacklist => u.blacklist
  }

  function WithNames(u: User, rel: Rel, l: seq<Name>): (v: User)
    ensures Names(v, rel) == l
    ensures OnlyRelChanged(u, v, rel)
  {
    match rel
    case Friends => u.(friends := l)
    case Favorites => u.(favorites := l)
    case Blacklist => u.(blacklist := l)
  }

  /** `v` differs from `u` in the `rel` column at most. */
  predicate OnlyRelChanged(u: User, v: User, rel: Rel) {
    && v.password == u.password
    && v.dialogs == u.dialogs
    && forall other :: other != rel ==> Names(v, other) == Names(u, other)
  }

  /** `st'` differs from `st` in the `users` row of `owner` at most. */
  predicate OnlyUserChanged(st: State, st': State, owner: Name) {
    && st'.users.Keys == st.users.Keys
    && st'.profiles == st.profiles
    && st'.requests == st.requests
    && st'.sessions == st.sessions
    && st'.logs == st.logs
    && forall n :: n in st.users && n != owner ==> st'.users[n] == st.users[n]
  }

  /** Between `st` and `st'` only the `users` rows of `touched` and the
      `requests` table may differ. */
  predicate Frame(st: State, st': State, touched: set<Name>) {
    && st'.users.Keys == st.users.Keys
    && st'.profiles == st.profiles
    && st'.sessions == st.sessions
    && st'.logs == st.logs
    && forall n :: n in st.users && n !in touched ==> st'.users[n] == st.users[n]
  }

  /** The request `q` links `a` and `b`, in either direction. */
  predicate Links(q: AddRequest, a: Name, b: Name) {
    (q.from == a && q.to == b) || (q.from == b && q.to == a)
  }

  /** `_add_to`'s write for an owner known to exist: a no-op when `item`
      is already listed, otherwise `item` joins the list. */
  function AddName(st: State, owner: Name, item: Name, rel: Rel): (st': State)
    requires owner in st.users
    ensures OnlyUserChanged(st, st', owner)
    ensures OnlyRelChanged(st.users[owner], st'.users[owner], rel)
    ensures Members(Names(st'.users[owner], rel)) == Members(Names(st.users[owner], rel)) + {item}
    ensures NoDup(Names(st.users[owner], rel)) ==> NoDup(Names(st'.users[owner], rel))
    ensures item in Names(st.users[owner], rel) ==> st' == st
  {
    var u := st.users[owner];
    if item in Names(u, rel) then
      assert WithNames(u, rel, Names(u, rel)) == u;
      st
    else
      st.(users := st.users[owner := WithNames(u, rel, Added(Names(u, rel), item))])
  }

  /** `_remove_from`'s write for an owner known to exist: the first
      occurrence of `item` goes; with no duplicates, `item` is gone. */
  function RemoveName(st: State, owner: Name, item: Name, rel: Rel): (st': State)
    requires owner in st.users
    ensures OnlyUserChanged(st, st', owner)
    ensures OnlyRelChanged(st.users[owner], st'.users[owner], rel)
    ensures Members(Names(st'.users[owner], rel)) <= Members(Names(st.users[owner], rel))
    ensures Members(Names(st.users[owner], rel)) - {item} <= Members(Names(st'.users[owner], rel))
    ensures NoDup(Names(st.users[owner], rel)) ==>
      && NoDup(Names(st'.users[owner], rel))
      && Members(Names(st'.users[owner], rel)) == Members(Names(st.users[owner], rel)) - {item}
    ensures item !in Names(st.users[owner], rel) ==> st' == st
  {
    var u := st.users[owner];
    if item !in Names(u, rel) then
      assert WithNames(u, rel, Names(u, rel)) == u;
      st
    else
      st.(users := st.users[owner := WithNames(u, rel, Removed(Names(u, rel), item))])
  }

  /** `_add_to(owner, item, rel)`: `BadRequest` for an unknown owner. */
  function AddTo(st: State, owner: Name, item: Name, rel: Rel): (r: Result<State, Error>)
    ensures r.Err? <==> owner !in st.users
    ensures r.Err? ==> r.error == BadRequest
    ensures r.Ok? ==> r.value == AddName(st, owner, item, rel)
  {
    if owner !in st.users then Err(BadRequest) else Ok(AddName(st, owner, item, rel))
  }

  /** `_remove_from(owner, item, rel)`: `BadRequest` for an unknown owner. */
  function RemoveFrom(st: State, owner: Name, item: Name, rel: Rel): (r: Result<State, Error>)
    ensures r.Err? <==> owner !in st.users
    ensures r.Err? ==> r.error == BadRequest
    ensures r.Ok? ==> r.value == RemoveName(st, owner, item, rel)
  {
    if owner !in st.users then Err(BadRequest) else Ok(RemoveName(st, owner, item, rel))
  }

  /** `_add_to(owner, str(d), 'dialogs')`'s write for an owner known to
      exist: `d` is listed afterwards, and nothing else is added. */
  function AddDialog(st: State, owner: Name, d: int): (st': State)
    requires owner in st.users
    ensures OnlyUserChanged(st, st', owner)
    ensures st'.users[owner] == st.users[owner].(dialogs := st'.users[owner].dialogs)
    ensures d in st'.users[owner].dialogs
    ensures forall y :: y in st'.users[owner].dialogs ==> y in st.users[owner].dialogs || y == d
    ensures forall y :: y in st.users[owner].dialogs ==> y in st'.users[owner].dialogs
    ensures NoDup(st.users[owner].dialogs) ==> NoDup(st'.users[owner].dialogs)
    ensures d in st.users[owner].dialogs ==> st' == st
  {
    var u := st.users[owner];
    if d in u.dialogs then
      assert u.(dialogs := Added(u.dialogs, d)) == u;
      st
    else
      st.(users := st.users[owner := u.(dialogs := Added(u.dialogs, d))])
  }

  /** `_add_to(owner, str(d), 'dialogs')`: `BadRequest` for an unknown owner. */
  function AddDialogTo(st: State, owner: Name, d: int): (r: Result<State, Error>)
    ensures r.Err? <==> owner !in st.users
    ensures r.Err? ==> r.error == BadRequest
    ensures r.Ok? ==> r.value == AddDialog(st, owner, d)
  {
    if owner !in st.users then Err(BadRequest) else Ok(AddDialog(st, owner, d))
  }

  /** `_remove_from(owner, str(d), 'dialogs')`. */
  function RemoveDialogFrom(st: State, owner: Name, d: int): (r: Result<State, Error>)
    ensures r.Err? <==> owner !in st.users
    ensures r.Err? ==> r.error == BadRequest
    ensures r.Ok? ==>
      && OnlyUserChanged(st, r.value, owner)
      && r.value.users[owner] == st.users[owner].(dialogs := r.value.users[owner].dialogs)
      && (forall y :: y in r.value.users[owner].dialogs ==> y in st.users[owner].dialogs)
      && (forall y :: y in st.users[owner].dialogs && y != d ==> y in r.value.users[owner].dialogs)
      && (NoDup(st.users[owner].dialogs) ==>
            NoDup(r.value.users[owner].dialogs) && d !in r.value.users[owner].dialogs)
  {
    if owner !in st.users then Err(BadRequest)
    else
      var u := st.users[owner];
      Ok(st.(users := st.users[owner := u.(dialogs := Removed(u.dialogs, d))]))
  }

  /** `_user_exists`. */
  predicate UserExists(st: State, n: Name) {
    n in st.users
  }

  /** `_is_blacklisted(nick, user)`: `nick` is in `user`'s blacklist; never
      true of oneself. */
  predicate IsBlacklisted(st: State, nick: Name, user: Name) {
    nick != user && user in st.users && nick in st.users[user].blacklist
  }

  /** `_remove_add_request(from, to)`: deletes every request row from `from`
      to `to` and no other row. */
  function RemoveAddRequest(st: State, from: Name, to: Name): (st': State)
    ensures st' == st.(requests := st'.requests)
    ensures forall q :: q in st'.requests ==> q in st.requests && !(q.from == from && q.to == to)
    ensures forall q :: q in st.requests && !(q.from == from && q.to == to) ==> q in st'.requests
    ensures NoDup(st.requests) ==> NoDup(st'.requests)
  {
    st.(requests := Filter(st.requests, (q: AddRequest) => !(q.from == from && q.to == to)))
  }

  /** There is a pending request from `a` to `b`. */
  predicate HasRequest(st: State, a: Name, b: Name) {
    exists q :: q in st.requests && q.from == a && q.to == b
  }

  /** The name on the first session row opened from `ip`. */
  function NameAt(sessions: seq<Session>, ip: Address): (r: Option<Name>)
    ensures r.None? <==> forall s :: s in sessions ==> s.address != ip
    ensures r.Some? ==> exists s :: s in sessions && s.address == ip && s.name == r.value
  {
    if sessions == [] then None
    else if sessions[0].address == ip then Some(sessions[0].name)
    else NameAt(sessions[1..], ip)
  }

  /** `_get_nick(ip)`: the caller's name, or `BadRequest` without a session. */
  function GetNick(st: State, ip: Address): (r: Result<Name, Error>)
    ensures r.Err? <==> forall s :: s in st.sessions ==> s.address != ip
    ensures r.Err? ==> r.error == BadRequest
    ensures r.Ok? ==> exists s :: s in st.sessions && s.address == ip && s.name == r.value
  {
    match NameAt(st.sessions, ip)
    case None => Err(BadRequest)
    case Some(n) => Ok(n)
  }

  /** Names that hold at least one session: `SELECT name FROM sessions`. */
  function Online(st: State): (on: set<Name>)
    ensures forall s :: s in st.sessions ==> s.name in on
    ensures forall n :: n in on ==> exists s :: s in st.sessions && s.name == n
  {
    set s | s in st.sessions :: s.name
  }

  /** `_add_session`: the insert either passes the store's uniqueness
      constraint (`admit`) or raises `BadRequest`. */
  function AddSession(st: State, nick: Name, key: string, ip: Address, admit: bool): (r: Result<State, Error>)
    ensures r.Err? <==> !admit
    ensures r.Err? ==> r.error == BadRequest
    ensures r.Ok? ==> r.value == st.(sessions := r.value.sessions)
    ensures r.Ok? ==> Session(ip, nick, key) in r.value.sessions
    ensures r.Ok? ==> forall s :: s in st.sessions ==> s in r.value.sessions
    ensures r.Ok? ==> forall s :: s in r.value.sessions ==> s in st.sessions || s == Session(ip, nick, key)
  {
    if admit then Ok(st.(sessions := st.sessions + [Session(ip, nick, key)])) else Err(BadRequest)
  }

  /** `_close_session(ip)` and `_clean_up(ip)`: every session row opened from
      `ip` goes, the others stay. */
  function CloseSession(st: State, ip: Address): (st': State)
    ensures st' == st.(sessions := st'.sessions)
    ensures forall s :: s in st'.sessions ==> s in st.sessions && s.address != ip
    ensures forall s :: s in st.sessions && s.address != ip ==> s in st'.sessions
  {
    st.(sessions := Filter(st.sessions, (s: Session) => s.address != ip))
  }

  /** `_user_in_dialog(user, dialog)`: the dialog number, when `dialog` is an
      integer listed in `user`'s dialogs; `BadRequest` otherwise. */
  function InDialog(st: State, user: Name, dialog: Value): (r: Result<int, Error>)
    ensures r.Ok? <==> dialog.IntVal? && user in st.users && dialog.i in st.users[user].dialogs
    ensures r.Ok? ==> r.value == dialog.i
    ensures r.Err? ==> r.error == BadRequest
  {
    if !dialog.IntVal? then Err(BadRequest)
    else if user !in st.users || dialog.i !in st.users[user].dialogs then Err(BadRequest)
    else Ok(dialog.i)
  }

  /** Every user other than `nick` that lists dialog `d`. */
  function Holders(st: State, d: int, nick: Name): (h: set<Name>)
    ensures forall n :: n in h <==> n in st.users && n != nick && d in st.users[n].dialogs
  {
    set n | n in st.users && n != nick && d in st.users[n].dialogs
  }

  /** `_get_collocutor(d, nick)`: some other user listing `d`. The query has
      no ORDER BY; the model takes the lexicographically least such user,
      which is forced whenever there is only one. */
  function Collocutor(st: State, d: int, nick: Name): (r: Option<Name>)
    ensures r.None? <==> Holders(st, d, nick) == {}
    ensures r.Some? ==> r.value in st.users && r.value != nick && d in st.users[r.value].dialogs
    ensures forall u :: Holders(st, d, nick) == {u} ==> r == Some(u)
  {
    var h := Holders(st, d, nick);
    if h == {} then None else Some(Text.Least(h))
  }
}

=== FILE: text.dfy ===
/** String predicates the store's queries rely on. */
module Text {
  import Lists

  predicate IsPrefix(p: string, s: string) {
    |p| <= |s| && p == s[..|p|]
  }

  /** PostgreSQL `POSITION(t IN s) > 0`: `t` occurs somewhere in `s`
      (the empty string occurs everywhere). */
  predicate Contains(s: string, t: string)
    decreases |s|
  {
    IsPrefix(t, s) || (|s| > 0 && Contains(s[1..], t))
  }

  /** `t` sits in `s` starting at index `i`. */
  predicate OccursAt(s: string, t: string, i: int) {
    0 <= i <= |s| - |t| && s[i..i + |t|] == t
  }

  /** `Contains` is exactly "`t` occurs at some index of `s`". */
  lemma {:induction false} ContainsIffOccurs(s: string, t: string)
    ensures Contains(s, t) <==> exists i :: OccursAt(s, t, i)
    decreases |s|
  {
    if |s| > 0 {
      ContainsIffOccurs(s[1..], t);
    }
    if Contains(s, t) {
      if IsPrefix(t, s) {
        assert OccursAt(s, t, 0);
      } else {
        var i :| OccursAt(s[1..], t, i);
        assert s[1..][i..i + |t|] == s[i + 1..i + 1 + |t|];
        assert OccursAt(s, t, i + 1);
      }
    }
    if exists i :: OccursAt(s, t, i) {
      var i :| OccursAt(s, t, i);
      if i > 0 {
        assert s[1..][i - 1..i - 1 + |t|] == s[i..i + |t|];
        assert OccursAt(s[1..], t, i - 1);
      } else {
        assert IsPrefix(t, s);
      }
    }
  }

  /** Lexicographic order on strings, by character code. */
  predicate LexLe(a: string, b: string)
    decreases |a|
  {
    |a| == 0 || (|b| > 0 && (a[0] < b[0] || (a[0] == b[0] && LexLe(a[1..], b[1..]))))
  }

  lemma {:induction false} LexTotal(a: string, b: string)
    ensures LexLe(a, b) || LexLe(b, a)
    decreases |a|
  {
    if |a| > 0 && |b| > 0 && a[0] == b[0] {
      LexTotal(a[1..], b[1..]);
    }
  }

  lemma {:induction false} LexAntisymmetric(a: string, b: string)
    requires LexLe(a, b) && LexLe(b, a)
    ensures a == b
    decreases |a|
  {
    if |a| > 0 {
      LexAntisymmetric(a[1..], b[1..]);
      assert a == [a[0]] + a[1..];
      assert b == [b[0]] + b[1..];
    }
  }

  lemma {:induction false} LexTransitive(a: string, b: string, c: string)
    requires LexLe(a, b) && LexLe(b, c)
    ensures LexLe(a, c)
    decreases |a|
  {
    if |a| > 0 && a[0] == b[0] && b[0] == c[0] {
      LexTransitive(a[1..], b[1..], c[1..]);
    }
  }

  /** `m` is a lexicographically least member of `s`. */
  predicate IsLeast(m: string, s: set<string>) {
    m in s && forall y :: y in s ==> LexLe(m, y)
  }

  /** Every finite non-empty set of strings has a lexicographically least member. */
  lemma {:induction false} LeastExists(s: set<string>)
    requires s != {}
    ensures exists m :: IsLeast(m, s)
    decreases |s|
  {
    var x := Lists.Member(s);
    if s == {x} {
      LexReflexive(x);
      assert IsLeast(x, s);
    } else {
      var rest := s - {x};
      LeastExists(rest);
      var m :| IsLeast(m, rest);
      LexTotal(m, x);
      if LexLe(x, m) {
        forall y | y in s ensures LexLe(x, y) {
          if y == x { LexReflexive(x); } else { LexTransitive(x, m, y); }
        }
        assert IsLeast(x, s);
      } else {
        assert IsLeast(m, s);
      }
    }
  }

  lemma {:induction false} LexReflexive(a: string)
    ensures LexLe(a, a)
    decreases |a|
  {
    if |a| > 0 { LexReflexive(a[1..]); }
  }

  lemma LeastUnique(s: set<string>)
    ensures forall a, b :: IsLeast(a, s) && IsLeast(b, s) ==> a == b
  {
    forall a, b | IsLeast(a, s) && IsLeast(b, s) ensures a == b {
      LexAntisymmetric(a, b);
    }
  }

  /** The lexicographically least member of `s`. */
  function Least(s: set<string>): (m: string)
    requires s != {}
    ensures m in s
    ensures forall y :: y in s ==> LexLe(m, y)
  {
    LeastExists(s);
    LeastUnique(s);
    var m :| IsLeast(m, s);
    m
  }
}

=== FILE: wrappers.dfy ===
/** The optional and fallible values used throughout the model. */
module Wrappers {

  /** A value that may be absent, as a SQL `fetchone()` that found no row. */
  datatype Option<+T> = None | Some(value: T)

  /** Either a value or an error. */
  datatype Result<+T, +E> = Ok(value: T) | Err(error: E)
}
